=== FILE: README.md ===
# StatusBar.Avalonia in Dafny

This project models the core of StatusBar.Avalonia, a status-bar component for
Avalonia applications, and proves properties of that model. An application asks a
`StatusBarManager` for items. Each item is a `StatusBarItem` handle over a
`StatusBarEntry` control. The manager queues entries until a
`StatusBarContainer` is bound, then hands each one over. The container lays
entries out in three regions (left, center, right), ordered by priority. It
places entries that arrive before it is loaded once it loads, and removes an
entry when the entry is disposed. An entry renders its text as inline segments:
plain text, and icons written as `$(name)` or `$(name~spin)`. A `Codicon`
control shows one icon, either as a catalog glyph or, for a few icons that can
spin, as a vector path.

Files:

- `wrappers.dfy` holds module `Wrappers`: `Option`, plus `Outcome`, which models an operation that either passes or throws.
- `types.dfy` holds module `StatusBarTypes`: the alignment enum, the exception kinds thrown, and opaque stand-ins for brushes, click actions, content objects and font weights.
- `icon_text.dfy` holds module `IconText`, the icon-token grammar:
  - the split of a text into inlines: the specification function `Parse` and the loop `BuildInlines`;
  - the `ResolveIcon` converter;
  - the `TextHasIcon` converters.
- `controls.dfy` holds module `Controls`, the entry and the container classes. They share one module because each refers to the other: the container subscribes to an entry's `Disposed` event, and the entry's `Dispose` calls back into the container.
- `codicon.dfy` holds module `CodiconControl`: the icon control and its pure display choice.
- `item.dfy` holds module `Items`: the `StatusBarItem` handle.
- `manager.dfy` holds module `Manager`: `StatusBarManager` and `DisposableAction`.

Choices made in the model:

- The regular expression `\$\(([^)]+)\)` is replaced by a direct matcher. `MatchAt` recognises a token at a position. `NextMatch` finds the leftmost one. `MatchesFrom` lists the successive matches without overlap, as `Regex.Matches` does.
- The glyph lookup `IconProvider.GetIcon` is not part of this model. It is a parameter `catalog: string -> Option<string>`.
- **The model follows the code, not the documented behaviour.** The `Text` property's documentation says icons may sit in mid-text: `My text $(icon-name) contains icons like $(icon-name) this one.` (src/StatusBar.Avalonia/StatusBarItem.cs:49-54). The scan loop instead emits only the preceding text when a match starts after the last consumed position, and emits nothing for the token itself. So the model, like the code, renders `"Hello $(check) world"` as `[Literal("Hello "), Literal(" world")]`. `HelloWorldDropsToken` states this. `ScanReproducesTextIffAdjacent` gives the general rule: the scan's inlines reproduce the text exactly when every token starts where the previous one ended.
- The two `.NET` removal operations differ, and the model keeps both:
  - `Children.Remove` removes the first occurrence of the entry (`RemoveFirst`).
  - A delegate's `-=` removes the last occurrence of the handler (`RemoveLast`).
- An entry subscribed several times is removed once per subscription. `Occurrences` counts the subscriptions, and `RemoveFromAllTimes` applies the removals.
- Ghost bookkeeping supports the manager's contracts:
  - the container records every entry handed to it, in `arrivals`;
  - the manager records the entries it has created (`created`) and those it has delivered (`delivered`).
- `StatusBarContainer` and `StatusBarManager` each have an invariant `Valid()`. Their constructors establish it, and their methods keep it. The entry, the handle and the icon control need none.
  - For the container, `Valid()` means every region is sorted by non-increasing priority.
  - For the manager, it means creation order equals delivery order followed by the queue, and the queue is empty once a container is bound.
- A property the source leaves null is `None`. The handle's own Text and ToolTip are `Option<string>`, since a new handle reads null for both (see "## Findings").
- A thrown exception becomes a `Fail(...)` result, and a normal return becomes `Pass`. Where the source throws before changing anything, the model changes nothing. The `Codicon` setters `SetIcon` and `SetSpin` are the exception: the property value is stored first, so it stays stored when the update that follows throws.

## Model

| member | source | states |
|---|---|---|
| IconText.MatchAtIsToken | src/StatusBar.Avalonia/Controls/StatusBarEntry.axaml.cs:346 | a match starts at `i` and ends at `e` exactly when `s[i..e]` is `$(`, one or more characters other than `)`, then `)` |
| IconText.NextMatch | src/StatusBar.Avalonia/Controls/StatusBarEntry.axaml.cs:346 | the match found is at or after the search start, a token starts there, and no token starts between the search start and it (leftmost-first) |
| IconText.HasTokenIff | src/StatusBar.Avalonia/Controls/StatusBarEntry.axaml.cs:294 | the pattern matches a text exactly when some position of the text starts a token |
| IconText.MatchesFrom | src/StatusBar.Avalonia/Controls/StatusBarEntry.axaml.cs:301 | every listed match is a token at its start, and each match starts at or after the end of the one before (no overlap) |
| IconText.MatchesAreLeftmost | src/StatusBar.Avalonia/Controls/StatusBarEntry.axaml.cs:301 | no token starts between the end of one listed match and the start of the next, so no match is skipped |
| IconText.MatchesAreExhaustive | src/StatusBar.Avalonia/Controls/StatusBarEntry.axaml.cs:301 | no token starts at or after the end of the last listed match (or at or after the start, when none is listed), so no match is missing at the end |
| IconText.EmptyParensAreNoToken | src/StatusBar.Avalonia/Controls/StatusBarEntry.axaml.cs:346 | `$()` is not a token, so it yields no inlines |
| IconText.MatchAt | src/StatusBar.Avalonia/Controls/StatusBarEntry.axaml.cs:346 | a match at `i` starts with `$` there, ends with `)`, and spans at least four characters |
| IconText.TokenSegment | src/StatusBar.Avalonia/Controls/StatusBarEntry.axaml.cs:313-323 | the inline for a token is an icon exactly when the catalog knows the token's name with a trailing `~spin` stripped; the icon carries that stripped name and spins exactly when the inner text ends in `~spin`; otherwise the inline is the whole token as literal text |
| IconText.Parse | src/StatusBar.Avalonia/Controls/StatusBarEntry.axaml.cs:294-298 | the inline list is empty exactly when the text holds no token (empty text included) |
| IconText.ScanFrom | src/StatusBar.Avalonia/Controls/StatusBarEntry.axaml.cs:304-332 | the scan from a position produces no inline exactly when that position is the end of the text |
| IconText.BuildInlines | src/StatusBar.Avalonia/Controls/StatusBarEntry.axaml.cs:300-332 | the loop over the matches, which tracks the end of the previous match, returns exactly `Parse` of the text |
| IconText.OneSegmentPerMatch | src/StatusBar.Avalonia/Controls/StatusBarEntry.axaml.cs:304-332 | each match contributes exactly one inline, and the trailing text at most one more |
| IconText.SegmentsWellFormed | src/StatusBar.Avalonia/Controls/StatusBarEntry.axaml.cs:306-331 | no inline is an empty literal, and every icon inline names an icon the catalog knows |
| IconText.TokenSegmentSourceText | src/StatusBar.Avalonia/Controls/StatusBarEntry.axaml.cs:313-323 | the inline made from a token reproduces that token, `~spin` suffix included |
| IconText.FlattenNoLonger | src/StatusBar.Avalonia/Controls/StatusBarEntry.axaml.cs:306-331 | the inlines never hold more text than the input |
| IconText.GapLosesText | src/StatusBar.Avalonia/Controls/StatusBarEntry.axaml.cs:306-310 | when text precedes the next match, the inlines come out strictly shorter than the input |
| IconText.ScanReproducesTextIffAdjacent | src/StatusBar.Avalonia/Controls/StatusBarEntry.axaml.cs:304-332 | the scan's inlines (`ScanFrom`) reproduce the input text exactly when every token starts where the previous match ended; a token preceded by unconsumed text is lost |
| IconText.HelloWorldDropsToken | src/StatusBar.Avalonia/Controls/StatusBarEntry.axaml.cs:306-310 | `"Hello $(check) world"` renders as `[Literal("Hello "), Literal(" world")]`, whatever the catalog holds |
| IconText.SpinningIcon | src/StatusBar.Avalonia/Controls/StatusBarEntry.axaml.cs:313-318 | `"$(sync~spin)"` renders as one spinning `sync` icon when the catalog knows `sync` |
| IconText.UnknownIconIsLiteral | src/StatusBar.Avalonia/Controls/StatusBarEntry.axaml.cs:320-323 | `"$(unknown-name)"` renders as that token's text when the catalog does not know the name |
| IconText.ResolveIcon | src/StatusBar.Avalonia/Controls/StatusBarEntry.axaml.cs:351-366 | null or empty text converts to the empty string; text without a token converts to itself; any other text converts to the replacement of every match (`ResolveFrom`, whose rule `ResolveStep` states) |
| IconText.ResolveFrom | src/StatusBar.Avalonia/Controls/StatusBarEntry.axaml.cs:357-365 | the replaced text keeps the text before the first match; without a match the text is kept whole |
| IconText.ResolveStep | src/StatusBar.Avalonia/Controls/StatusBarEntry.axaml.cs:357-365 | the unfolding rule of the replacement, for every text and position: the next match is a token, it is replaced by the catalog's glyph for its whole inner text (`~spin` kept) or else by the whole input text, and the text before it is kept; its partner `ResolveEchoIsIdentity` shows that exactly the matches are replaced |
| IconText.ResolveEchoIsIdentity | src/StatusBar.Avalonia/Controls/StatusBarEntry.axaml.cs:357-365 | with the catalog that gives each name back as its own token, replacing reproduces the text, so exactly the matches are replaced and every other character is kept |
| IconText.ResolveIconEcho | src/StatusBar.Avalonia/Controls/StatusBarEntry.axaml.cs:351-366 | the converter, given that catalog, is the identity on every text |
| IconText.ResolveKnown | src/StatusBar.Avalonia/Controls/StatusBarEntry.axaml.cs:357-364 | example: in `a$(x)b`, with `x` known, the token is replaced by its glyph and `a` and `b` are kept |
| IconText.ResolveUnknownRepeatsText | src/StatusBar.Avalonia/Controls/StatusBarEntry.axaml.cs:363 | example: with `x` unknown, `a$(x)b` converts to `a` + `a$(x)b` + `b`, so the token is replaced by the whole input text |
| IconText.ResolveKeepsSpinSuffix | src/StatusBar.Avalonia/Controls/StatusBarEntry.axaml.cs:361-362 | example: `$(sync~spin)` converts to the catalog's glyph for `sync~spin`, with the suffix kept in the name looked up, or to the whole text when the catalog has none |
| IconText.TextHasIconReverse | src/StatusBar.Avalonia/Controls/StatusBarEntry.axaml.cs:371-372 | the reverse converter is the exact negation of `TextHasIcon` |
| IconText.TextHasIcon | src/StatusBar.Avalonia/Controls/StatusBarEntry.axaml.cs:368-369 | `TextHasIcon` holds exactly when the text is present and some position of it starts a token |
| IconText.HasIconIffInlines | src/StatusBar.Avalonia/Controls/StatusBarEntry.axaml.cs:368-369 | `TextHasIcon` holds exactly when the entry renders a non-empty inline list for the text |
| Controls.StatusBarEntry.constructor | src/StatusBar.Avalonia/Controls/StatusBarEntry.axaml.cs:59-70 | a new entry has the given id, alignment, priority, temporary flag, text and visibility; tooltip empty; no click, colours or content; no subscribers |
| Controls.StatusBarEntry.OnTextChanged | src/StatusBar.Avalonia/Controls/StatusBarEntry.axaml.cs:287-335 | with the rich-text part present, the inlines become `Parse` of the text; without it, nothing changes |
| Controls.StatusBarEntry.ApplyTemplate | src/StatusBar.Avalonia/Controls/StatusBarEntry.axaml.cs:219-234 | records whether the rich-text part exists, then renders the current text |
| Controls.StatusBarEntry.SetText | src/StatusBar.Avalonia/Controls/StatusBarEntry.axaml.cs:281-284 | setting Text stores it and re-renders the inlines from the new value |
| Controls.StatusBarEntry.PointerPressed | src/StatusBar.Avalonia/Controls/StatusBarEntry.axaml.cs:236-245 | with no click handler the pressed flag is unchanged; with one, a left press sets it |
| Controls.StatusBarEntry.PointerReleased | src/StatusBar.Avalonia/Controls/StatusBarEntry.axaml.cs:247-262 | the handler runs exactly when there is one, a left press was recorded and the pointer is still over the entry; with a handler, the flag is always cleared |
| Controls.StatusBarEntry.Dispose | src/StatusBar.Avalonia/Controls/StatusBarEntry.axaml.cs:337-342 | hides the entry; each subscribed container removes it once per subscription and stays sorted; then the subscriber list is empty, so a second Dispose notifies nobody |
| Controls.StatusBarEntry.NotifyDisposed | src/StatusBar.Avalonia/Controls/StatusBarEntry.axaml.cs:340 | raising Disposed calls every handler in the invocation list, in order: each container removes the entry once per time it appears in the list, and the list loses one subscription per handler called |
| Controls.StatusBarEntry.NotifyHandler | src/StatusBar.Avalonia/Controls/StatusBarEntry.axaml.cs:340 | the handler call at index `i`: afterwards each listed container has removed the entry once per time it appears among the first `i + 1` handlers, and the invocation list has lost exactly those `i + 1` subscriptions |
| Controls.RemoveEachCount | src/StatusBar.Avalonia/Controls/StatusBarEntry.axaml.cs:340-341 | the unsubscriptions made while raising Disposed remove, as a multiset, exactly the handlers called |
| Controls.RemoveEachSelf | src/StatusBar.Avalonia/Controls/StatusBarEntry.axaml.cs:340-341 | after every subscriber has been called and has unsubscribed itself, the invocation list is empty |
| Controls.InsertIndex | src/StatusBar.Avalonia/Controls/StatusBarContainer.axaml.cs:81-92 | the insert index is the first position holding an entry of strictly lower priority, or the length; children that are not entries are skipped |
| Controls.GetInsertIndex | src/StatusBar.Avalonia/Controls/StatusBarContainer.axaml.cs:81-92 | the scan returns `InsertIndex` |
| Controls.InsertKeepsSorted | src/StatusBar.Avalonia/Controls/StatusBarContainer.axaml.cs:74-75 | inserting at the insert index keeps a region sorted by non-increasing priority |
| Controls.InsertIsStable | src/StatusBar.Avalonia/Controls/StatusBarContainer.axaml.cs:85 | the new entry lands after every entry of equal or higher priority and before every entry of lower priority |
| Controls.InsertKeepsArrivalOrder | src/StatusBar.Avalonia/Controls/StatusBarContainer.axaml.cs:74-75 | the new entry is appended to the entries of its own priority; the entries of every other priority are unchanged |
| Controls.WithTarget | src/StatusBar.Avalonia/Controls/StatusBarContainer.axaml.cs:67-72 | routing: Center goes to the center region, Right to the right region, everything else to the left region; the other regions are untouched |
| Controls.PlaceInto | src/StatusBar.Avalonia/Controls/StatusBarContainer.axaml.cs:67-75 | placing an entry grows its target region by exactly one and leaves the other two unchanged |
| Controls.PlaceKeepsSorted | src/StatusBar.Avalonia/Controls/StatusBarContainer.axaml.cs:67-77 | placing an entry keeps all three regions sorted |
| Controls.PlaceAllKeepsSorted | src/StatusBar.Avalonia/Controls/StatusBarContainer.axaml.cs:51-54 | placing a series of queued entries keeps all regions sorted |
| Controls.PlaceAll | src/StatusBar.Avalonia/Controls/StatusBarContainer.axaml.cs:47-55 | placing a series of entries adds exactly one child per entry to the layout |
| Controls.PlaceAllContains | src/StatusBar.Avalonia/Controls/StatusBarContainer.axaml.cs:47-55 | after placing a series, each region holds everything it held before and every placed entry of its alignment |
| Controls.PlaceAllKeepsArrivalOrder | src/StatusBar.Avalonia/Controls/StatusBarContainer.axaml.cs:47-55 | after placing a series, the entries of one region and priority are the earlier ones followed by the newcomers of that region and priority, in queue order |
| Controls.RemoveFirstAbsent | src/StatusBar.Avalonia/Controls/StatusBarContainer.axaml.cs:102-104 | removing a child that a region lacks is a no-op |
| Controls.RemoveFirstCutsFirst | src/StatusBar.Avalonia/Controls/StatusBarContainer.axaml.cs:102-104 | removal cuts out exactly the first occurrence, and the remaining children keep their relative order |
| Controls.RemoveFirstCount | src/StatusBar.Avalonia/Controls/StatusBarContainer.axaml.cs:102-104 | removal drops exactly one occurrence, when there is one |
| Controls.RemoveFirst | src/StatusBar.Avalonia/Controls/StatusBarContainer.axaml.cs:102-104 | removing a child shortens a region by one when the child is there, and leaves its length unchanged otherwise |
| Controls.RemoveLastAbsent | src/StatusBar.Avalonia/Controls/StatusBarContainer.axaml.cs:100 | unsubscribing a handler that is not subscribed changes nothing |
| Controls.RemoveLastCount | src/StatusBar.Avalonia/Controls/StatusBarContainer.axaml.cs:100 | unsubscribing drops exactly one subscription of the handler, when there is one |
| Controls.RemoveLast | src/StatusBar.Avalonia/Controls/StatusBarContainer.axaml.cs:100 | unsubscribing shortens the invocation list by one when the handler is in it, and leaves its length unchanged otherwise |
| Controls.RemoveKeepsSorted | src/StatusBar.Avalonia/Controls/StatusBarContainer.axaml.cs:102-104 | removing a child keeps a region sorted |
| Controls.RemoveFromAll | src/StatusBar.Avalonia/Controls/StatusBarContainer.axaml.cs:102-104 | a dispose notification shortens by one each region that holds the entry, and leaves the length of the others unchanged |
| Controls.RemoveTwiceIsRemoveOnce | src/StatusBar.Avalonia/Controls/StatusBarContainer.axaml.cs:102-104 | a child occurring at most once is gone after one removal, and a second removal changes nothing |
| Controls.RemoveFromAllTimesKeepsSorted | src/StatusBar.Avalonia/Controls/StatusBarContainer.axaml.cs:95-105 | any number of dispose notifications keeps every region sorted |
| Controls.RepeatedRemovalIsRemoval | src/StatusBar.Avalonia/Controls/StatusBarContainer.axaml.cs:95-105 | for an entry placed at most once per region, several notifications remove exactly what one does |
| Controls.StatusBarContainer.constructor | src/StatusBar.Avalonia/Controls/StatusBarContainer.axaml.cs:25-29 | a new container is unloaded, with empty regions and an empty queue |
| Controls.StatusBarContainer.AddStatusBarItemView | src/StatusBar.Avalonia/Controls/StatusBarContainer.axaml.cs:57-79 | a null item fails with ArgumentNullException and changes nothing; otherwise the entry is logged; before loading it is only queued, with the layout and its subscribers unchanged; once loaded the layout becomes `PlaceInto` (the entry in its region at the insert index), the queue is unchanged and the container is appended to the entry's subscribers; regions stay sorted; nothing outside the regions, queue, log and the entry's subscribers changes |
| Controls.StatusBarContainer.Place | src/StatusBar.Avalonia/Controls/StatusBarContainer.axaml.cs:67-77 | the loaded branch: the layout becomes `PlaceInto` of the old layout, and the container is appended to the entry's subscribers |
| Controls.StatusBarContainer.OnLoaded | src/StatusBar.Avalonia/Controls/StatusBarContainer.axaml.cs:47-55 | loading drains the queue first in first out: the layout is the old one with every queued entry placed in queue order (`PlaceAll`); each entry gains one subscription per time it was queued; regions stay sorted |
| Controls.StatusBarContainer.DequeueAndPlace | src/StatusBar.Avalonia/Controls/StatusBarContainer.axaml.cs:51-53 | one round of the drain dequeues the head and places it; the head gains one more subscription of the container and every other queued entry keeps its subscribers |
| Controls.StatusBarContainer.OnStatusBarItemDisposed | src/StatusBar.Avalonia/Controls/StatusBarContainer.axaml.cs:95-105 | unsubscribes the handler once, removes the entry's first occurrence from each of the three regions, and keeps the regions sorted |
| CodiconControl.GlyphText | src/StatusBar.Avalonia/Controls/Codicon.axaml.cs:87 | the glyph text is absent exactly when the icon name is absent; otherwise it is the catalog glyph, falling back to the name itself |
| CodiconControl.Display | src/StatusBar.Avalonia/Controls/Codicon.axaml.cs:83-103 | the spin path is chosen exactly when spin is on and the name is in the spin map, and then it has that name's geometry |
| CodiconControl.SpinKeys | src/StatusBar.Avalonia/Controls/Codicon.axaml.cs:12-33 | the spin map holds exactly `gear`, `loading` and `sync` |
| CodiconControl.PlainShowsGlyph | src/StatusBar.Avalonia/Controls/Codicon.axaml.cs:83-89 | without spin the glyph text is shown, and it is absent exactly when the name is |
| CodiconControl.SpinFallsBackToPlain | src/StatusBar.Avalonia/Controls/Codicon.axaml.cs:93-99 | with spin on, a name outside the spin map is shown exactly as without spin |
| CodiconControl.SpinIgnoresCatalog | src/StatusBar.Avalonia/Controls/Codicon.axaml.cs:101-103 | a spin-map icon shows its geometry whatever the catalog holds |
| CodiconControl.Codicon.constructor | src/StatusBar.Avalonia/Controls/Codicon.axaml.cs:53-54 | a new control has no icon, spin off, and no template parts |
| CodiconControl.Codicon.UpdateIcon | src/StatusBar.Avalonia/Controls/Codicon.axaml.cs:78-104 | nothing changes until both parts exist; spin on with no name fails with ArgumentNullException and changes nothing; otherwise the parts show `Display`, and the hidden part keeps its content |
| CodiconControl.Codicon.ApplyTemplate | src/StatusBar.Avalonia/Controls/Codicon.axaml.cs:57-65 | records the two parts; with either part missing, or when the update fails (spin on, no name), both parts are unchanged; otherwise they show the display chosen for the current icon and spin, and the hidden part keeps its content |
| CodiconControl.Codicon.OnPropertyChanged | src/StatusBar.Avalonia/Controls/Codicon.axaml.cs:68-76 | Icon and Spin changes re-run the selection: the parts are unchanged when one is missing or the update fails, and otherwise show `Display` with the hidden part keeping its content; any other property change leaves both parts unchanged |
| CodiconControl.Codicon.SetIcon | src/StatusBar.Avalonia/Controls/Codicon.axaml.cs:39-43 | setting Icon stores it; the parts are unchanged when one is missing or the spin-map lookup throws on a null name; otherwise they show the display chosen for the new name, and the hidden part keeps its content |
| CodiconControl.Codicon.SetSpin | src/StatusBar.Avalonia/Controls/Codicon.axaml.cs:47-51 | setting Spin stores it; the parts are unchanged when one is missing or the spin-map lookup throws on a null name; otherwise they show the display chosen for the new flag, and the hidden part keeps its content |
| Items.StatusBarItem.constructor | src/StatusBar.Avalonia/StatusBarItem.cs:17-30 | the handle takes the id, alignment and priority of the entry and holds the entry, and is not disposed; its Text, ToolTip, Click, Color and BackgroundColor stay null and its FontWeight zero, because each setter returns while no entry is held (see "## Findings") |
| Items.StatusBarItem.Snapshot | src/StatusBar.Avalonia/StatusBarItem.cs:17-30 | the evidently intended constructor: the handle holds the entry and mirrors every visual property of it (`Mirrors`) |
| Items.FreshHandleDoesNotMirror | src/StatusBar.Avalonia/StatusBarItem.cs:17-30 | a handle built as the library builds it reads null for Text although its entry's Text is set, so it does not mirror its entry |
| Items.StatusBarItem.SetText | src/StatusBar.Avalonia/StatusBarItem.cs:56-73 | disposed: fails with ObjectDisposedException, nothing changes; no entry: nothing changes; otherwise handle and entry both hold the value, and the entry re-renders; a handle that mirrors its entry still does |
| Items.StatusBarItem.SetToolTip | src/StatusBar.Avalonia/StatusBarItem.cs:78-95 | same guard; otherwise handle and entry both hold the value; a handle that mirrors its entry still does |
| Items.StatusBarItem.SetClick | src/StatusBar.Avalonia/StatusBarItem.cs:100-117 | same guard; otherwise handle and entry both hold the value; a handle that mirrors its entry still does |
| Items.StatusBarItem.SetColor | src/StatusBar.Avalonia/StatusBarItem.cs:122-139 | same guard; otherwise handle and entry both hold the value; a handle that mirrors its entry still does |
| Items.StatusBarItem.SetBackgroundColor | src/StatusBar.Avalonia/StatusBarItem.cs:144-161 | same guard; otherwise handle and entry both hold the value; a handle that mirrors its entry still does |
| Items.StatusBarItem.SetFontWeight | src/StatusBar.Avalonia/StatusBarItem.cs:163-179 | same guard; otherwise handle and entry both hold the value; a handle that mirrors its entry still does |
| Items.StatusBarItem.Content | src/StatusBar.Avalonia/StatusBarItem.cs:183-191 | reading Content gives nothing once the entry is gone and never fails; otherwise it gives the entry's content |
| Items.StatusBarItem.SetContent | src/StatusBar.Avalonia/StatusBarItem.cs:192-202 | same guard; otherwise only the entry's content changes, and reading it back gives the value |
| Items.StatusBarItem.Show | src/StatusBar.Avalonia/StatusBarItem.cs:208-218 | disposed: fails and changes nothing; otherwise the entry becomes visible and nothing else changes |
| Items.StatusBarItem.Hide | src/StatusBar.Avalonia/StatusBarItem.cs:223-233 | disposed: fails and changes nothing; otherwise the entry becomes hidden and nothing else changes |
| Items.StatusBarItem.Dispose | src/StatusBar.Avalonia/StatusBarItem.cs:236-252 | a call with no entry, or on a disposed handle, does nothing; the first call on a live handle disposes the entry (see `StatusBarEntry.Dispose`) and drops it, so later calls do nothing |
| Manager.DisposableAction.constructor | src/StatusBar.Avalonia/StatusBarManager.cs:182 | the action holds the message entry |
| Manager.DisposableAction.Dispose | src/StatusBar.Avalonia/StatusBarManager.cs:182-188 | every call disposes the entry again; after the first, it has no subscribers left to notify |
| Manager.StatusBarManager.constructor | src/StatusBar.Avalonia/StatusBarManager.cs:19 | a new manager has no container and an empty queue |
| Manager.StatusBarManager.WithContainer | src/StatusBar.Avalonia/StatusBarManager.cs:26-29 | the container-taking constructor binds at once, so a later `BindContainer` fails |
| Manager.StatusBarManager.Flush | src/StatusBar.Avalonia/StatusBarManager.cs:45-48 | the drain loop hands every queued entry to the container in queue order and leaves the queue empty; an unloaded container queues them all with its layout unchanged; a loaded one places them all in order (`PlaceAll`) with its queue unchanged, and each entry gains one subscription per time it was queued |
| Manager.StatusBarManager.FlushStep | src/StatusBar.Avalonia/StatusBarManager.cs:45-47 | one round of the drain dequeues the head and hands it to the container: queued there when unloaded, placed when loaded; only the head gains a subscription, and only when the container is loaded |
| Manager.StatusBarManager.BindContainer | src/StatusBar.Avalonia/StatusBarManager.cs:36-49 | with a container already bound: fails with InvalidOperationException, keeps the first container and the queue, and leaves the new container unchanged; otherwise binds, every entry created so far has been delivered in creation order, and the new container queues the handed-over entries (unloaded) or places them in order and subscribes to them (loaded) |
| Manager.StatusBarManager.AddStatusBarEntry | src/StatusBar.Avalonia/StatusBarManager.cs:165-179 | unbound: the entry is only queued, with its subscribers unchanged; bound and unloaded: the container queues it and keeps its layout; bound and loaded: the container places it (`PlaceInto`) and subscribes to it; either way, delivered followed by queued equals creation order |
| Manager.StatusBarManager.CreateStatusBarItem | src/StatusBar.Avalonia/StatusBarManager.cs:59-71 | a fresh hidden, permanent entry is added, with empty text and tooltip, the given id, alignment (Left by default) and priority (0 by default), no click, colours or content, normal weight and no inlines. It is queued while the manager is unbound, queued in the container while that is unloaded, and placed once it is loaded. It is subscribed to by the container exactly when the container is bound and loaded. The result is a live handle over it whose own properties are unset |
| Manager.StatusBarManager.SetStatusBarMessage | src/StatusBar.Avalonia/StatusBarManager.cs:80-119 | a fresh shown, temporary entry is added, with the given text, a fresh id, Left alignment, priority 0, an empty tooltip, no click, colours or content, normal weight and no inlines. It is queued or placed as for `CreateStatusBarItem`, and subscribed to by the container exactly when that is bound and loaded. The result disposes that entry |

## Left out

- Threading: dispatcher marshalling (`CheckAccess`, `Invoke`, `Post`, `VerifyAccess`) is left out. Every effect is applied directly, on one thread.
- Timers and tasks: `Task.Run`, `Task.Delay`, the cancellation token and awaiting `hideWhenDone` are left out. The automatic dispose they trigger calls the same `StatusBarEntry.Dispose` as the handle.
- SetStatusBarMessage: stands for both overloads. The one taking `hideWhenDone` (StatusBarManager.cs:128-163) builds the same entry. The two differ only in what triggers the automatic dispose, which is left out.
- Manager.DisposableAction.Dispose: does not model the cancellation of the timer, which is left out with the timers.
- Fresh ids: `Guid.NewGuid` is not part of this model. The fresh id is a parameter of `SetStatusBarMessage`.
- Concurrency: `ConcurrentQueue` is modelled as a plain sequence, with no concurrent producers.
- UI framework:
  - Left out: the Avalonia property system, templates, `InlineCollection`, `Run` and `StackPanel`. Inlines are `Segment` values, and panels are sequences of `Child`.
  - Left out: pseudo-classes (`:pressed`, `:has-click`, `:has-foreground`, `:has-background`), so the entry's `OnPropertyChanged` keeps only the Text branch. Also left out: `DisplayName`, `BoxShadow` and the container's template lookup.
- Regex engine: `Regex` is replaced by the direct matcher described above.
- Icon catalog: `IconProvider.GetIcon` is not part of this model. It is the `catalog` parameter.
- Spin-map geometry: the path data in the spin map is replaced by three opaque geometry tags.
- Culture-sensitive string comparison is not modelled. `EndsWith("~spin")` is modelled as an ordinal suffix test.
- Controls.StatusBarContainer.OnStatusBarItemDisposed: takes the entry directly. The type test on the event sender always succeeds here, because only entries raise `Disposed`.
- Type names: the manager calls the container's `AddStatusBarEntry`, while the container declares `AddStatusBarItemView(StatusBarItemView)`. Both are the one operation `AddStatusBarItemView` on `StatusBarEntry`.
- Controls.StatusBarContainer.OnLoaded: places queued entries through `Place`, the loaded branch of `AddStatusBarItemView`, rather than by calling `AddStatusBarItemView` again. The effect is the same, because the container is loaded at that point and queued entries are never null. The `arrivals` log is not extended for them, since they were logged when first queued.
- CodiconControl.Codicon.SetIcon, CodiconControl.Codicon.SetSpin: re-run `UpdateIcon` even when the new value equals the old one. The property system raises no change notification then. The displayed result is the same, and the property system is left out.
- Controls.StatusBarEntry.SetText: re-runs `OnTextChanged` even when the new text equals the old one, where the property system raises no change. For a fixed catalog the inlines come out the same.
- Theming (`StatusBarTheme`), the demo application, the disabled-id set and the right-click menu are not part of this model.

## Findings

| source | as written | input that shows it | evidently intended | confidence | as-written member | corrected member |
|---|---|---|---|---|---|---|
| src/StatusBar.Avalonia/StatusBarItem.cs:17-30 | the constructor assigns Text, ToolTip, Click, Color, BackgroundColor and FontWeight through their setters before it stores the entry (line 29); each setter returns at once while no entry is held (lines 63-64, 85-86, 107-108, 129-130, 151-152, 170-171), so these properties of a new handle stay null or zero | any entry: `CreateStatusBarItem("a")` gives an entry whose Text is `""`, while the handle's Text reads null | the handle starts as a copy of the entry's properties, and the setters keep the two in step | medium, not executed | Items.FreshHandleDoesNotMirror | Items.StatusBarItem.Snapshot |

`CreateStatusBarItem` keeps the constructor as written, because that is what a caller of the library receives. `Snapshot` is proved to give a handle that mirrors its entry, and every property setter is proved to keep a mirroring handle mirroring.

=== FILE: codicon.dfy ===
/**
 * The icon control: shows an icon either as a glyph in a text part or, for a
 * few icons that can spin, as a vector path in a path part.
 */
module CodiconControl {
  import opened Wrappers
  import opened StatusBarTypes
  import IconText

  /** The vector geometries of the spin map; their path data is not modelled. */
  datatype SpinGeometry = GearPath | LoadingPath | SyncPath

  /** The icons that have a spinning rendering, with their geometry. */
  const SpinIconPaths: map<string, SpinGeometry> :=
    map["gear" := GearPath, "loading" := LoadingPath, "sync" := SyncPath]

  /** What the control shows. */
  datatype IconDisplay = SpinPath(data: SpinGeometry) | Glyph(text: Option<string>)

  /** The glyph text for an icon name: the catalog glyph, falling back to the
      name itself; no text without a name. */
  function GlyphText(icon: Option<string>, catalog: IconText.Catalog): (t: Option<string>)
    ensures t.None? <==> icon.None?
    ensures icon.Some? && catalog(icon.value).Some? ==> t == catalog(icon.value)
    ensures icon.Some? && catalog(icon.value).None? ==> t == icon
  {
    match icon
    case None => None
    case Some(name) =>
      match catalog(name)
      case Some(glyph) => Some(glyph)
      case None => Some(name)
  }

  /** The choice UpdateIcon makes. With spin on, the map lookup needs a name. */
  function Display(icon: Option<string>, spin: bool, catalog: IconText.Catalog): (d: IconDisplay)
    requires spin ==> icon.Some?
    ensures d.SpinPath? <==> spin && icon.value in SpinIconPaths
    ensures d.SpinPath? ==> d.data == SpinIconPaths[icon.value]
  {
    if !spin then Glyph(GlyphText(icon, catalog))
    else if icon.value in SpinIconPaths then SpinPath(SpinIconPaths[icon.value])
    else Glyph(GlyphText(icon, catalog))
  }

  /** Only gear, loading and sync can spin. */
  lemma SpinKeys(name: string)
    ensures name in SpinIconPaths <==> name == "gear" || name == "loading" || name == "sync"
  {
  }

  /** Without spin the glyph text is shown, and it is absent exactly when the
      name is. */
  lemma PlainShowsGlyph(icon: Option<string>, catalog: IconText.Catalog)
    ensures Display(icon, false, catalog).Glyph?
    ensures Display(icon, false, catalog).text.None? <==> icon.None?
    ensures icon.Some? ==> Display(icon, false, catalog).text.Some?
  {
  }

  /** With spin on, a name outside the spin map is shown exactly as it would be
      without spin. */
  lemma SpinFallsBackToPlain(name: string, catalog: IconText.Catalog)
    requires name !in SpinIconPaths
    ensures Display(Some(name), true, catalog) == Display(Some(name), false, catalog)
  {
  }

  /** A known spin icon shows its own geometry, whatever the catalog holds. */
  lemma SpinIgnoresCatalog(name: string, c1: IconText.Catalog, c2: IconText.Catalog)
    requires name in SpinIconPaths
    ensures Display(Some(name), true, c1) == Display(Some(name), true, c2) == SpinPath(SpinIconPaths[name])
  {
  }

  /** The path part of the template. */
  class PathPart {
    var isVisible: bool
    var data: Option<SpinGeometry>

    constructor ()
      ensures isVisible && data == None
    {
      isVisible, data := true, None;
    }
  }

  /** The text part of the template. */
  class TextPart {
    var isVisible: bool
    var text: Option<string>

    constructor ()
      ensures isVisible && text == None
    {
      isVisible, text := true, None;
    }
  }

  /** The properties whose change the control observes. */
  datatype CodiconProperty = IconProperty | SpinProperty | OtherProperty

  class Codicon {
    var icon: Option<string>
    var spin: bool
    var spinIconPath: PathPart?
    var iconText: TextPart?

    constructor ()
      ensures icon == None && !spin && spinIconPath == null && iconText == null
    {
      icon, spin := None, false;
      spinIconPath, iconText := null, null;
    }

    /** The template parts show `d`. */
    predicate Shows(d: IconDisplay)
      reads this, spinIconPath, iconText
      requires spinIconPath != null && iconText != null
    {
      match d
      case SpinPath(g) => spinIconPath.isVisible && spinIconPath.data == Some(g) && !iconText.isVisible
      case Glyph(t) => !spinIconPath.isVisible && iconText.isVisible && iconText.text == t
    }

    /** UpdateIcon: nothing until both parts exist; then show the chosen
        display, leaving the hidden part's content as it was. With spin on and
        no icon name, the spin-map lookup throws before anything changes. */
    method UpdateIcon(catalog: IconText.Catalog) returns (r: Outcome<Exception>)
      modifies spinIconPath, iconText
      ensures r.Fail? <==> spinIconPath != null && iconText != null && spin && icon.None?
      ensures r.Fail? ==> r.error == ArgumentNullException
      ensures (spinIconPath == null || iconText == null || r.Fail?) ==>
        (spinIconPath != null ==> unchanged(spinIconPath)) && (iconText != null ==> unchanged(iconText))
      ensures spinIconPath != null && iconText != null && r.Pass? ==>
        && Shows(Display(icon, spin, catalog))
        && (Display(icon, spin, catalog).SpinPath? ==> iconText.text == old(iconText.text))
        && (Display(icon, spin, catalog).Glyph? ==> spinIconPath.data == old(spinIconPath.data))
    {
      if spinIconPath == null || iconText == null {
        return Pass;
      }
      if !spin {
        spinIconPath.isVisible := false;
        iconText.isVisible := true;
        iconText.text := GlyphText(icon, catalog);
        return Pass;
      }
      if icon.None? {
        return Fail(ArgumentNullException);
      }
      if icon.value !in SpinIconPaths {
        spinIconPath.isVisible := false;
        iconText.isVisible := true;
        iconText.text := GlyphText(icon, catalog);
        return Pass;
      }
      spinIconPath.isVisible := true;
      spinIconPath.data := Some(SpinIconPaths[icon.value]);
      iconText.isVisible := false;
      return Pass;
    }

    /** OnApplyTemplate: look up the two parts, then update. */
    method ApplyTemplate(path: PathPart?, text: TextPart?, catalog: IconText.Catalog) returns (r: Outcome<Exception>)
      modifies this`spinIconPath, this`iconText, path, text
      ensures spinIconPath == path && iconText == text
      ensures r.Fail? <==> path != null && text != null && spin && icon.None?
      ensures path == null || text == null || r.Fail? ==>
        (path != null ==> unchanged(path)) && (text != null ==> unchanged(text))
      ensures path != null && text != null && r.Pass? ==>
        && Shows(Display(icon, spin, catalog))
        && (Display(icon, spin, catalog).SpinPath? ==> text.text == old(text.text))
        && (Display(icon, spin, catalog).Glyph? ==> path.data == old(path.data))
    {
      spinIconPath := path;
      iconText := text;
      r := UpdateIcon(catalog);
    }

    /** OnPropertyChanged: only Icon and Spin re-run the selection. */
    method OnPropertyChanged(property: CodiconProperty, catalog: IconText.Catalog) returns (r: Outcome<Exception>)
      modifies spinIconPath, iconText
      ensures property == OtherProperty ==> r == Pass
      ensures property == OtherProperty ==>
        (spinIconPath != null ==> unchanged(spinIconPath)) && (iconText != null ==> unchanged(iconText))
      ensures property != OtherProperty ==>
        (r.Fail? <==> spinIconPath != null && iconText != null && spin && icon.None?)
      ensures property != OtherProperty && (spinIconPath == null || iconText == null || r.Fail?) ==>
        (spinIconPath != null ==> unchanged(spinIconPath)) && (iconText != null ==> unchanged(iconText))
      ensures property != OtherProperty && spinIconPath != null && iconText != null && r.Pass? ==>
        && Shows(Display(icon, spin, catalog))
        && (Display(icon, spin, catalog).SpinPath? ==> iconText.text == old(iconText.text))
        && (Display(icon, spin, catalog).Glyph? ==> spinIconPath.data == old(spinIconPath.data))
    {
      r := Pass;
      if property == IconProperty || property == SpinProperty {
        r := UpdateIcon(catalog);
      }
    }

    /** Setting Icon. */
    method SetIcon(value: Option<string>, catalog: IconText.Catalog) returns (r: Outcome<Exception>)
      modifies this`icon, spinIconPath, iconText
      ensures icon == value
      ensures r.Fail? <==> spinIconPath != null && iconText != null && spin && value.None?
      ensures (spinIconPath == null || iconText == null || r.Fail?) ==>
        (spinIconPath != null ==> unchanged(spinIconPath)) && (iconText != null ==> unchanged(iconText))
      ensures spinIconPath != null && iconText != null && r.Pass? ==>
        && Shows(Display(value, spin, catalog))
        && (Display(value, spin, catalog).SpinPath? ==> iconText.text == old(iconText.text))
        && (Display(value, spin, catalog).Glyph? ==> spinIconPath.data == old(spinIconPath.data))
    {
      icon := value;
      r := OnPropertyChanged(IconProperty, catalog);
    }

    /** Setting Spin. */
    method SetSpin(value: bool, catalog: IconText.Catalog) returns (r: Outcome<Exception>)
      modifies this`spin, spinIconPath, iconText
      ensures spin == value
      ensures r.Fail? <==> spinIconPath != null && iconText != null && value && icon.None?
      ensures (spinIconPath == null || iconText == null || r.Fail?) ==>
        (spinIconPath != null ==> unchanged(spinIconPath)) && (iconText != null ==> unchanged(iconText))
      ensures spinIconPath != null && iconText != null && r.Pass? ==>
        && Shows(Display(icon, value, catalog))
        && (Display(icon, value, catalog).SpinPath? ==> iconText.text == old(iconText.text))
        && (Display(icon, value, catalog).Glyph? ==> spinIconPath.data == old(spinIconPath.data))
    {
      spin := value;
      r := OnPropertyChanged(SpinProperty, catalog);
    }
  }
}

=== FILE: controls.dfy ===
/**
 * The two controls of the status bar: an entry (one status-bar item with its
 * text, visual hints, click state and Disposed event) and the container that
 * lays entries out in three regions, left, center and right.
 *
 * They share one module because each refers to the other: the container
 * subscribes to every placed entry's Disposed event, and an entry's Dispose
 * calls back into its subscribers.
 */
module Controls {
  import opened Wrappers
  import opened StatusBarTypes
  import IconText

  // ===========================================================================
  // Region contents and their ordering
  // ===========================================================================

  /** A child control of a region panel: an entry, or any other control. */
  datatype Child = EntryChild(entry: StatusBarEntry) | OtherChild(tag: nat)

  /** The children of the three region panels. */
  datatype Regions = Regions(left: seq<Child>, center: seq<Child>, right: seq<Child>)

  /** `c` is an entry of strictly lower priority than `p`. */
  predicate IsLower(c: Child, p: int) {
    c.EntryChild? && c.entry.priority < p
  }

  /** Entries appear in non-increasing priority; other children are ignored. */
  ghost predicate Sorted(s: seq<Child>) {
    forall i, j :: 0 <= i < j < |s| && s[i].EntryChild? && s[j].EntryChild? ==>
      s[i].entry.priority >= s[j].entry.priority
  }

  /** The first position holding an entry of lower priority than `p`, or the
      length of `items` when there is none. */
  function InsertIndex(items: seq<Child>, p: int): (i: nat)
    ensures i <= |items|
    ensures forall j :: 0 <= j < i ==> !IsLower(items[j], p)
    ensures i < |items| ==> IsLower(items[i], p)
  {
    if items == [] then 0
    else if IsLower(items[0], p) then 0
    else 1 + InsertIndex(items[1..], p)
  }

  function InsertAt(s: seq<Child>, i: nat, c: Child): (r: seq<Child>)
    requires i <= |s|
  {
    s[..i] + [c] + s[i..]
  }

  /** GetInsertIndex: the scan over a panel's children. */
  method GetInsertIndex(items: seq<Child>, newItemPriority: int) returns (i: nat)
    ensures i == InsertIndex(items, newItemPriority)
  {
    for k := 0 to |items|
      invariant forall j :: 0 <= j < k ==> !IsLower(items[j], newItemPriority)
    {
      if items[k].EntryChild? && items[k].entry.priority < newItemPriority {
        return k;
      }
    }
    return |items|;
  }

  /** Inserting at the insert index keeps a region sorted. */
  lemma InsertKeepsSorted(s: seq<Child>, e: StatusBarEntry)
    requires Sorted(s)
    ensures Sorted(InsertAt(s, InsertIndex(s, e.priority), EntryChild(e)))
  {
    var i := InsertIndex(s, e.priority);
    var r := InsertAt(s, i, EntryChild(e));
    forall a, b | 0 <= a < b < |r| && r[a].EntryChild? && r[b].EntryChild?
      ensures r[a].entry.priority >= r[b].entry.priority
    {
      if b < i {
        assert r[a] == s[a] && r[b] == s[b];
      } else if b == i {
        assert r[a] == s[a];
      } else if a == i {
        assert r[b] == s[b - 1];
        assert IsLower(s[i], e.priority);
        assert i == b - 1 || s[i].entry.priority >= s[b - 1].entry.priority;
      } else if a < i {
        assert r[a] == s[a] && r[b] == s[b - 1];
      } else {
        assert r[a] == s[a - 1] && r[b] == s[b - 1];
      }
    }
  }

  /** Stability: in a sorted region the new entry lands after every entry of
      equal or higher priority and before every entry of lower priority. */
  lemma InsertIsStable(s: seq<Child>, e: StatusBarEntry)
    requires Sorted(s)
    ensures var i := InsertIndex(s, e.priority);
      && (forall j :: 0 <= j < i && s[j].EntryChild? ==> s[j].entry.priority >= e.priority)
      && (forall j :: i <= j < |s| && s[j].EntryChild? ==> s[j].entry.priority < e.priority)
  {
    var i := InsertIndex(s, e.priority);
    forall j | i <= j < |s| && s[j].EntryChild?
      ensures s[j].entry.priority < e.priority
    {
      assert IsLower(s[i], e.priority);
    }
  }

  /** The entries of priority `p` among `s`, in order. */
  function OfPriority(s: seq<Child>, p: int): seq<StatusBarEntry> {
    if s == [] then []
    else (if s[0].EntryChild? && s[0].entry.priority == p then [s[0].entry] else []) + OfPriority(s[1..], p)
  }

  lemma {:induction false} OfPriorityConcat(a: seq<Child>, b: seq<Child>, p: int)
    ensures OfPriority(a + b, p) == OfPriority(a, p) + OfPriority(b, p)
  {
    if a == [] {
      assert a + b == b;
    } else {
      assert (a + b)[0] == a[0];
      assert (a + b)[1..] == a[1..] + b;
      OfPriorityConcat(a[1..], b, p);
    }
  }

  lemma {:induction false} OfPriorityNone(s: seq<Child>, p: int)
    requires forall j :: 0 <= j < |s| && s[j].EntryChild? ==> s[j].entry.priority < p
    ensures OfPriority(s, p) == []
  {
    if s != [] {
      OfPriorityNone(s[1..], p);
    }
  }

  /** Arrival order within a priority: inserting `e` into a sorted region
      appends it to the entries of its own priority and leaves the entries of
      every other priority as they were. */
  lemma InsertKeepsArrivalOrder(s: seq<Child>, e: StatusBarEntry, p: int)
    requires Sorted(s)
    ensures OfPriority(InsertAt(s, InsertIndex(s, e.priority), EntryChild(e)), p)
      == OfPriority(s, p) + (if e.priority == p then [e] else [])
  {
    var i := InsertIndex(s, e.priority);
    var head, tail, x := s[..i], s[i..], if e.priority == p then [e] else [];
    assert s == head + tail;
    assert InsertAt(s, i, EntryChild(e)) == (head + [EntryChild(e)]) + tail;
    assert OfPriority([EntryChild(e)], p) == x by {
      assert [EntryChild(e)][1..] == [];
    }
    OfPriorityConcat(head, tail, p);
    OfPriorityConcat(head + [EntryChild(e)], tail, p);
    OfPriorityConcat(head, [EntryChild(e)], p);
    if e.priority == p {
      InsertIsStable(s, e);
      OfPriorityNone(tail, p);
      assert OfPriority(tail, p) == [];
    } else {
      assert x == [];
    }
  }

  /** The region an alignment routes to. */
  function Target(rs: Regions, a: StatusBarAlignment): seq<Child> {
    match a
    case Center => rs.center
    case Right => rs.right
    case Left => rs.left
  }

  function WithTarget(rs: Regions, a: StatusBarAlignment, s: seq<Child>): (r: Regions)
    ensures Target(r, a) == s
    ensures forall b :: b != a ==> Target(r, b) == Target(rs, b)
  {
    match a
    case Center => rs.(center := s)
    case Right => rs.(right := s)
    case Left => rs.(left := s)
  }

  ghost predicate AllSorted(rs: Regions) {
    Sorted(rs.left) && Sorted(rs.center) && Sorted(rs.right)
  }

  /** The number of children over all three regions. */
  function Size(rs: Regions): nat {
    |rs.left| + |rs.center| + |rs.right|
  }

  /** The layout after placing `e` in the region of its alignment. */
  function PlaceInto(rs: Regions, e: StatusBarEntry): (r: Regions)
    ensures |Target(r, e.alignment)| == |Target(rs, e.alignment)| + 1
    ensures forall b :: b != e.alignment ==> Target(r, b) == Target(rs, b)
    ensures Size(r) == Size(rs) + 1
  {
    var s := Target(rs, e.alignment);
    WithTarget(rs, e.alignment, InsertAt(s, InsertIndex(s, e.priority), EntryChild(e)))
  }

  lemma PlaceKeepsSorted(rs: Regions, e: StatusBarEntry)
    requires AllSorted(rs)
    ensures AllSorted(PlaceInto(rs, e))
  {
    InsertKeepsSorted(Target(rs, e.alignment), e);
  }

  /** The layout after placing each of `es` in turn. */
  function PlaceAll(rs: Regions, es: seq<StatusBarEntry>): (r: Regions)
    ensures Size(r) == Size(rs) + |es|
    decreases |es|
  {
    if es == [] then rs else PlaceAll(PlaceInto(rs, es[0]), es[1..])
  }

  /** Placing a series loses no child: what the regions held stays, and every
      placed entry is in the region of its alignment. */
  lemma {:induction false} PlaceAllContains(rs: Regions, es: seq<StatusBarEntry>, a: StatusBarAlignment, c: Child)
    requires c in Target(rs, a) || (c.EntryChild? && c.entry in es && c.entry.alignment == a)
    ensures c in Target(PlaceAll(rs, es), a)
    decreases |es|
  {
    if es != [] {
      var e := es[0];
      var s := Target(rs, e.alignment);
      var i := InsertIndex(s, e.priority);
      assert InsertAt(s, i, EntryChild(e)) == s[..i] + [EntryChild(e)] + s[i..];
      assert s == s[..i] + s[i..];
      if c !in Target(rs, a) && c.entry != e {
        assert c.entry in es[1..];
      }
      PlaceAllContains(PlaceInto(rs, e), es[1..], a, c);
    }
  }

  /** The entries of `es` with priority `p` and alignment `a`, in order. */
  function Arrivals(es: seq<StatusBarEntry>, a: StatusBarAlignment, p: int): seq<StatusBarEntry> {
    if es == [] then []
    else (if es[0].alignment == a && es[0].priority == p then [es[0]] else []) + Arrivals(es[1..], a, p)
  }

  /** Placing an entry keeps any one region sorted. */
  lemma PlaceKeepsRegionSorted(rs: Regions, e: StatusBarEntry, a: StatusBarAlignment)
    requires Sorted(Target(rs, a))
    ensures Sorted(Target(PlaceInto(rs, e), a))
  {
    if e.alignment == a {
      InsertKeepsSorted(Target(rs, a), e);
    }
  }

  /** Placing one entry appends it to the entries of its region and priority. */
  lemma PlaceKeepsArrivalOrder(rs: Regions, e: StatusBarEntry, a: StatusBarAlignment, p: int)
    requires Sorted(Target(rs, a))
    ensures OfPriority(Target(PlaceInto(rs, e), a), p)
      == OfPriority(Target(rs, a), p) + (if e.alignment == a && e.priority == p then [e] else [])
  {
    if e.alignment == a {
      InsertKeepsArrivalOrder(Target(rs, a), e, p);
    }
  }

  /** Placing a series of entries keeps every region sorted by non-increasing
      priority. */
  lemma {:induction false} PlaceAllKeepsSorted(rs: Regions, es: seq<StatusBarEntry>)
    requires AllSorted(rs)
    ensures AllSorted(PlaceAll(rs, es))
    decreases |es|
  {
    if es != [] {
      PlaceKeepsSorted(rs, es[0]);
      PlaceAllKeepsSorted(PlaceInto(rs, es[0]), es[1..]);
    }
  }

  /** Placing a series of entries into sorted regions: entries of equal
      priority keep the order in which they arrived. */
  lemma {:induction false} PlaceAllKeepsArrivalOrder(rs: Regions, es: seq<StatusBarEntry>, a: StatusBarAlignment, p: int)
    requires Sorted(Target(rs, a))
    ensures OfPriority(Target(PlaceAll(rs, es), a), p) == OfPriority(Target(rs, a), p) + Arrivals(es, a, p)
    decreases |es|
  {
    if es != [] {
      var e := es[0];
      var rs' := PlaceInto(rs, e);
      var x := if e.alignment == a && e.priority == p then [e] else [];
      PlaceKeepsRegionSorted(rs, e, a);
      PlaceKeepsArrivalOrder(rs, e, a, p);
      PlaceAllKeepsArrivalOrder(rs', es[1..], a, p);
      Associative(OfPriority(Target(rs, a), p), x, Arrivals(es[1..], a, p));
    }
  }

  /** Regrouping a concatenation. Calling it at the one step that needs it
      is cheaper for the solver than leaving it to find the regrouping. */
  lemma Associative<T>(a: seq<T>, b: seq<T>, c: seq<T>)
    ensures (a + b) + c == a + (b + c)
  {
  }

  // ---------------------------------------------------------------------------
  // Removal
  // ---------------------------------------------------------------------------

  /** The position of the first occurrence of `x` in `s`. */
  function FirstIndex<T(==)>(s: seq<T>, x: T): (k: nat)
    requires x in s
    ensures k < |s| && s[k] == x && x !in s[..k]
  {
    if s[0] == x then 0
    else
      var k := FirstIndex(s[1..], x);
      assert s[..k + 1] == [s[0]] + s[1..][..k];
      k + 1
  }

  /** `s` without its first occurrence of `x` (a panel's Children.Remove). */
  function RemoveFirst<T(==)>(s: seq<T>, x: T): (r: seq<T>)
    ensures |r| == if x in s then |s| - 1 else |s|
  {
    if s == [] then []
    else if s[0] == x then s[1..]
    else [s[0]] + RemoveFirst(s[1..], x)
  }

  /** Children.Remove of a child that is not there changes nothing. */
  lemma {:induction false} RemoveFirstAbsent<T>(s: seq<T>, x: T)
    requires x !in s
    ensures RemoveFirst(s, x) == s
  {
    if s != [] {
      assert s == [s[0]] + s[1..];
      RemoveFirstAbsent(s[1..], x);
    }
  }

  /** Children.Remove cuts out exactly the first occurrence. */
  lemma {:induction false} RemoveFirstCutsFirst<T>(s: seq<T>, x: T)
    requires x in s
    ensures RemoveFirst(s, x) == s[..FirstIndex(s, x)] + s[FirstIndex(s, x) + 1..]
  {
    if s[0] != x {
      RemoveFirstCutsFirst(s[1..], x);
    }
  }

  /** Children.Remove drops exactly one occurrence, when there is one. */
  lemma {:induction false} RemoveFirstCount<T>(s: seq<T>, x: T)
    ensures multiset(RemoveFirst(s, x)) == multiset(s) - multiset{x}
  {
    if s != [] {
      assert s == [s[0]] + s[1..];
      if s[0] != x {
        RemoveFirstCount(s[1..], x);
      }
    }
  }

  /** `s` without its last occurrence of `x` (a delegate's `-=`). */
  function RemoveLast<T(==)>(s: seq<T>, x: T): (r: seq<T>)
    ensures |r| == if x in s then |s| - 1 else |s|
  {
    if s == [] then []
    else if s[|s| - 1] == x then s[..|s| - 1]
    else RemoveLast(s[..|s| - 1], x) + [s[|s| - 1]]
  }

  /** A delegate's `-=` of a handler that is not subscribed changes nothing. */
  lemma {:induction false} RemoveLastAbsent<T>(s: seq<T>, x: T)
    requires x !in s
    ensures RemoveLast(s, x) == s
  {
    if s != [] {
      assert s == s[..|s| - 1] + [s[|s| - 1]];
      RemoveLastAbsent(s[..|s| - 1], x);
    }
  }

  /** A delegate's `-=` drops exactly one occurrence of the handler, when
      there is one. */
  lemma {:induction false} RemoveLastCount<T>(s: seq<T>, x: T)
    ensures multiset(RemoveLast(s, x)) == multiset(s) - multiset{x}
  {
    if s != [] {
      var last := s[|s| - 1];
      assert s == s[..|s| - 1] + [last];
      if last != x {
        RemoveLastCount(s[..|s| - 1], x);
      }
    }
  }

  /** Cutting one child out keeps a region sorted. */
  lemma CutKeepsSorted(s: seq<Child>, k: nat)
    requires Sorted(s) && k < |s|
    ensures Sorted(s[..k] + s[k + 1..])
  {
    var r := s[..k] + s[k + 1..];
    assert |r| == |s| - 1;
    assert forall a :: 0 <= a < k ==> r[a] == s[a];
    assert forall a :: k <= a < |r| ==> r[a] == s[a + 1];
    forall a, b | 0 <= a < b < |r| && r[a].EntryChild? && r[b].EntryChild?
      ensures r[a].entry.priority >= r[b].entry.priority
    {
      var a' := if a < k then a else a + 1;
      var b' := if b < k then b else b + 1;
      assert r[a] == s[a'] && r[b] == s[b'] && a' < b';
    }
  }

  /** Removing a child keeps a region sorted. */
  lemma RemoveKeepsSorted(s: seq<Child>, x: Child)
    requires Sorted(s)
    ensures Sorted(RemoveFirst(s, x))
  {
    if x in s {
      RemoveFirstCutsFirst(s, x);
      CutKeepsSorted(s, FirstIndex(s, x));
    } else {
      RemoveFirstAbsent(s, x);
    }
  }

  /** Once a child occurring at most once is removed it is gone, so removing it
      again changes nothing. */
  lemma RemoveTwiceIsRemoveOnce<T>(s: seq<T>, x: T)
    requires multiset(s)[x] <= 1
    ensures x !in RemoveFirst(s, x)
    ensures RemoveFirst(RemoveFirst(s, x), x) == RemoveFirst(s, x)
  {
    var r := RemoveFirst(s, x);
    RemoveFirstCount(s, x);
    assert multiset(r)[x] == 0;
    RemoveFirstAbsent(r, x);
  }

  /** The layout after a dispose notification for `e`. */
  function RemoveFromAll(rs: Regions, e: StatusBarEntry): (r: Regions)
    ensures forall a :: |Target(r, a)| == if EntryChild(e) in Target(rs, a) then |Target(rs, a)| - 1 else |Target(rs, a)|
  {
    Regions(RemoveFirst(rs.left, EntryChild(e)), RemoveFirst(rs.center, EntryChild(e)),
            RemoveFirst(rs.right, EntryChild(e)))
  }

  /** The layout after `n` dispose notifications for `e`. */
  function RemoveFromAllTimes(rs: Regions, e: StatusBarEntry, n: nat): Regions {
    if n == 0 then rs else RemoveFromAll(RemoveFromAllTimes(rs, e, n - 1), e)
  }

  /** Dispose notifications keep every region sorted. */
  lemma {:induction false} RemoveFromAllTimesKeepsSorted(rs: Regions, e: StatusBarEntry, n: nat)
    requires AllSorted(rs)
    ensures AllSorted(RemoveFromAllTimes(rs, e, n))
  {
    if n > 0 {
      var prev := RemoveFromAllTimes(rs, e, n - 1);
      RemoveFromAllTimesKeepsSorted(rs, e, n - 1);
      RemoveKeepsSorted(prev.left, EntryChild(e));
      RemoveKeepsSorted(prev.center, EntryChild(e));
      RemoveKeepsSorted(prev.right, EntryChild(e));
    }
  }

  /** Each entry occurs at most once in each region, as a control has one parent. */
  ghost predicate AtMostOnce(rs: Regions, e: StatusBarEntry) {
    multiset(rs.left)[EntryChild(e)] <= 1 && multiset(rs.center)[EntryChild(e)] <= 1
    && multiset(rs.right)[EntryChild(e)] <= 1
  }

  /** Repeated notifications remove an entry that occurs at most once no
      further than the first one did. */
  lemma {:induction false} RepeatedRemovalIsRemoval(rs: Regions, e: StatusBarEntry, n: nat)
    requires AtMostOnce(rs, e) && n >= 1
    ensures RemoveFromAllTimes(rs, e, n) == RemoveFromAll(rs, e)
  {
    if n > 1 {
      RepeatedRemovalIsRemoval(rs, e, n - 1);
      RemoveTwiceIsRemoveOnce(rs.left, EntryChild(e));
      RemoveTwiceIsRemoveOnce(rs.center, EntryChild(e));
      RemoveTwiceIsRemoveOnce(rs.right, EntryChild(e));
    }
  }

  /** The number of occurrences of `x` among the first `n` elements of `s`. */
  function Occurrences<T(==)>(s: seq<T>, x: T, n: nat): nat
    requires n <= |s|
  {
    if n == 0 then 0 else Occurrences(s, x, n - 1) + (if s[n - 1] == x then 1 else 0)
  }

  /** `s` after a `-=` of each of `hs`, in order. */
  function RemoveEach<T(==)>(s: seq<T>, hs: seq<T>): seq<T>
    decreases |hs|
  {
    if hs == [] then s else RemoveLast(RemoveEach(s, hs[..|hs| - 1]), hs[|hs| - 1])
  }

  /** Each `-=` drops one occurrence of its handler, when there is one. */
  lemma {:induction false} RemoveEachCount<T>(s: seq<T>, hs: seq<T>)
    ensures multiset(RemoveEach(s, hs)) == multiset(s) - multiset(hs)
    decreases |hs|
  {
    if hs != [] {
      var init, x := hs[..|hs| - 1], hs[|hs| - 1];
      var rest := RemoveEach(s, init);
      RemoveEachCount(s, init);
      RemoveLastCount(rest, x);
      assert hs == init + [x];
      calc {
        multiset(RemoveEach(s, hs));
        multiset(RemoveLast(rest, x));
        multiset(rest) - multiset{x};
        (multiset(s) - multiset(init)) - multiset{x};
        { SubtractTwice(multiset(s), multiset(init), multiset{x}); }
        multiset(s) - (multiset(init) + multiset{x});
        multiset(s) - multiset(hs);
      }
    }
  }

  /** Subtracting two multisets in turn subtracts their union. */
  lemma SubtractTwice<T>(a: multiset<T>, b: multiset<T>, c: multiset<T>)
    ensures (a - b) - c == a - (b + c)
  {
    assert forall y :: ((a - b) - c)[y] == (a - (b + c))[y];
  }

  /** Every handler of a list unsubscribing once leaves the list empty. */
  lemma RemoveEachSelf<T>(s: seq<T>)
    ensures RemoveEach(s, s) == []
  {
    var r := RemoveEach(s, s);
    RemoveEachCount(s, s);
    assert multiset(r) == multiset{};
    assert |r| == |multiset(r)| == 0;
  }

  function Repeat<T>(x: T, n: nat): (r: seq<T>)
    ensures |r| == n
  {
    if n == 0 then [] else Repeat(x, n - 1) + [x]
  }

  /** One more subscription of `x` after `k` of them. */
  lemma SubscribedOnceMore<T>(base: seq<T>, before: seq<T>, after: seq<T>, x: T, k: nat)
    requires before == base + Repeat(x, k) && after == before + [x]
    ensures after == base + Repeat(x, k + 1)
  {
    Associative(base, Repeat(x, k), [x]);
  }

  // ===========================================================================
  // StatusBarEntry
  // ===========================================================================

  /** One status-bar item. Id, alignment, priority and the temporary flag are
      fixed when the entry is built; the rest may change. */
  class StatusBarEntry {
    const id: string
    const alignment: StatusBarAlignment
    const priority: int
    const isTemporary: bool
    var text: string
    var toolTip: string
    var click: Option<ClickAction>
    var isShow: bool
    var color: Option<Brush>
    var backgroundColor: Option<Brush>
    var fontWeight: FontWeight
    var content: Option<ContentObject>
    /** Whether the template supplied the rich-text part. */
    var hasRichText: bool
    /** The inlines last rendered into the rich-text part. */
    var inlines: seq<IconText.Segment>
    var isLeftButtonPressed: bool
    /** The invocation list of the Disposed event. */
    var disposedHandlers: seq<StatusBarContainer>

    /** An entry as the registry builds one, before its template is applied. */
    constructor (id: string, alignment: StatusBarAlignment, priority: int, isTemporary: bool,
                 text: string, isShow: bool)
      ensures this.id == id && this.alignment == alignment && this.priority == priority
      ensures this.isTemporary == isTemporary && this.text == text && this.isShow == isShow
      ensures toolTip == "" && click == None && color == None && backgroundColor == None
      ensures fontWeight == NormalFontWeight && content == None
      ensures !hasRichText && inlines == [] && !isLeftButtonPressed && disposedHandlers == []
    {
      this.id, this.alignment, this.priority, this.isTemporary := id, alignment, priority, isTemporary;
      this.text, this.isShow := text, isShow;
      toolTip, click, color, backgroundColor := "", None, None, None;
      fontWeight, content := NormalFontWeight, None;
      hasRichText, inlines, isLeftButtonPressed, disposedHandlers := false, [], false, [];
    }

    /** OnTextChanged: re-render the inlines from the text, when the rich-text
        part exists. */
    method OnTextChanged(catalog: IconText.Catalog)
      modifies this`inlines
      ensures inlines == if hasRichText then IconText.Parse(text, catalog) else old(inlines)
    {
      if !hasRichText {
        return;
      }
      inlines := IconText.BuildInlines(text, catalog);
    }

    /** OnApplyTemplate: record whether the rich-text part was found, then render. */
    method ApplyTemplate(richTextFound: bool, catalog: IconText.Catalog)
      modifies this`hasRichText, this`inlines
      ensures hasRichText == richTextFound
      ensures inlines == if richTextFound then IconText.Parse(text, catalog) else old(inlines)
    {
      hasRichText := richTextFound;
      OnTextChanged(catalog);
    }

    /** Setting Text re-renders the inlines. */
    method SetText(value: string, catalog: IconText.Catalog)
      modifies this`text, this`inlines
      ensures text == value
      ensures inlines == if hasRichText then IconText.Parse(value, catalog) else old(inlines)
    {
      text := value;
      OnTextChanged(catalog);
    }

    /** A pointer press: with a click handler, a left press is recorded. */
    method PointerPressed(isLeftButton: bool)
      modifies this`isLeftButtonPressed
      ensures isLeftButtonPressed == if click.Some? && isLeftButton then true else old(isLeftButtonPressed)
    {
      if click.None? {
        return;
      }
      if isLeftButton {
        isLeftButtonPressed := true;
      }
    }

    /** A pointer release: a release after a recorded left press clears the
        flag, and the handler runs only if the pointer is still over the entry.
        `invoked` tells whether the handler ran (and the event was handled). */
    method PointerReleased(isPointerOver: bool) returns (invoked: bool)
      modifies this`isLeftButtonPressed
      ensures invoked <==> click.Some? && old(isLeftButtonPressed) && isPointerOver
      ensures isLeftButtonPressed == if click.Some? then false else old(isLeftButtonPressed)
    {
      invoked := false;
      if click.None? {
        return;
      }
      if !isLeftButtonPressed {
        return;
      }
      isLeftButtonPressed := false;
      if !isPointerOver {
        return;
      }
      invoked := true;
    }

    /** Dispose: hide, notify every current subscriber once, then drop them all,
        so that a later Dispose notifies nobody. */
    method Dispose()
      modifies this`isShow, this`disposedHandlers
      modifies disposedHandlers`left, disposedHandlers`center, disposedHandlers`right
      ensures !isShow && disposedHandlers == []
      ensures forall c: StatusBarContainer :: c in old(disposedHandlers) ==>
        c.Layout() == RemoveFromAllTimes(old(c.Layout()), this, Occurrences(old(disposedHandlers), c, |old(disposedHandlers)|))
      ensures forall c: StatusBarContainer :: c in old(disposedHandlers) && old(c.Valid()) ==> c.Valid()
    {
      isShow := false;
      var handlers := disposedHandlers;
      NotifyDisposed(handlers);
      RemoveEachSelf(handlers);
      assert disposedHandlers == [];
      forall c: StatusBarContainer | c in handlers && old(c.Valid())
        ensures c.Valid()
      {
        RemoveFromAllTimesKeepsSorted(old(c.Layout()), this, Occurrences(handlers, c, |handlers|));
      }
      disposedHandlers := [];
    }

    /** Raise Disposed: call each handler of `handlers` in turn. */
    method NotifyDisposed(handlers: seq<StatusBarContainer>)
      modifies this`disposedHandlers, handlers`left, handlers`center, handlers`right
      ensures forall c: StatusBarContainer :: c in handlers ==>
        c.Layout() == RemoveFromAllTimes(old(c.Layout()), this, Occurrences(handlers, c, |handlers|))
      ensures disposedHandlers == RemoveEach(old(disposedHandlers), handlers)
    {
      ghost var layouts := map c | c in handlers :: c.Layout();
      ghost var subscribers := disposedHandlers;
      for i := 0 to |handlers|
        invariant forall c: StatusBarContainer :: c in handlers ==>
          c in layouts && c.Layout() == RemoveFromAllTimes(layouts[c], this, Occurrences(handlers, c, i))
        invariant disposedHandlers == RemoveEach(subscribers, handlers[..i])
      {
        NotifyHandler(handlers, i, layouts, subscribers);
      }
      assert handlers[..|handlers|] == handlers;
    }

    /** One turn of NotifyDisposed: the handler at index `i` removes this
        entry from its regions and unsubscribes once. `layouts` and
        `subscribers` are the containers' layouts and the subscriber list
        before the first turn. */
    method NotifyHandler(handlers: seq<StatusBarContainer>, i: nat,
                         ghost layouts: map<StatusBarContainer, Regions>, ghost subscribers: seq<StatusBarContainer>)
      requires i < |handlers|
      requires forall c: StatusBarContainer :: c in handlers ==>
        c in layouts && c.Layout() == RemoveFromAllTimes(layouts[c], this, Occurrences(handlers, c, i))
      requires disposedHandlers == RemoveEach(subscribers, handlers[..i])
      modifies this`disposedHandlers, {handlers[i]}`left, {handlers[i]}`center, {handlers[i]}`right
      ensures forall c: StatusBarContainer :: c in handlers ==>
        c in layouts && c.Layout() == RemoveFromAllTimes(layouts[c], this, Occurrences(handlers, c, i + 1))
      ensures disposedHandlers == RemoveEach(subscribers, handlers[..i + 1])
    {
      assert handlers[..i + 1][..i] == handlers[..i];
      var handler := handlers[i];
      handler.OnStatusBarItemDisposed(this);
      forall c: StatusBarContainer | c in handlers
        ensures c.Layout() == RemoveFromAllTimes(layouts[c], this, Occurrences(handlers, c, i + 1))
      {
        var k := Occurrences(handlers, c, i);
        if c == handler {
          assert Occurrences(handlers, c, i + 1) == k + 1;
        } else {
          assert Occurrences(handlers, c, i + 1) == k;
          assert c.Layout() == old(c.Layout());
        }
      }
    }
  }

  // ===========================================================================
  // StatusBarContainer
  // ===========================================================================

  /** The status-bar surface: three region panels, and a queue of entries that
      arrived before it was loaded. */
  class StatusBarContainer {
    var left: seq<Child>
    var center: seq<Child>
    var right: seq<Child>
    var pendingItems: seq<StatusBarEntry>
    var isLoaded: bool
    /** Every entry handed to AddStatusBarItemView, in order. */
    ghost var arrivals: seq<StatusBarEntry>

    /** Every region is sorted by non-increasing priority. */
    ghost predicate Valid()
      reads this
    {
      AllSorted(Layout())
    }

    function Layout(): Regions
      reads this
    {
      Regions(left, center, right)
    }

    constructor ()
      ensures Valid() && Layout() == Regions([], [], [])
      ensures pendingItems == [] && !isLoaded && arrivals == []
    {
      left, center, right := [], [], [];
      pendingItems, isLoaded := [], false;
      arrivals := [];
    }

    /** AddStatusBarItemView: reject null; before loading, queue the entry;
        once loaded, place it in its region and subscribe to its disposal. */
    method AddStatusBarItemView(newItem: StatusBarEntry?) returns (r: Outcome<Exception>)
      requires Valid()
      modifies this`left, this`center, this`right, this`pendingItems, this`arrivals
      modifies {newItem}`disposedHandlers
      ensures Valid()
      ensures newItem == null ==> r == Fail(ArgumentNullException) && unchanged(this)
      ensures newItem != null ==> r == Pass && arrivals == old(arrivals) + [newItem]
      ensures newItem != null && !isLoaded ==>
        && pendingItems == old(pendingItems) + [newItem] && Layout() == old(Layout())
        && newItem.disposedHandlers == old(newItem.disposedHandlers)
      ensures newItem != null && isLoaded ==>
        && pendingItems == old(pendingItems) && Layout() == PlaceInto(old(Layout()), newItem)
        && newItem.disposedHandlers == old(newItem.disposedHandlers) + [this]
    {
      if newItem == null {
        return Fail(ArgumentNullException);
      }
      arrivals := arrivals + [newItem];
      if !isLoaded {
        pendingItems := pendingItems + [newItem];
        return Pass;
      }
      PlaceKeepsSorted(Layout(), newItem);
      Place(newItem);
      return Pass;
    }

    /** The loaded branch of AddStatusBarItemView: insert at the insert index
        of the target region and subscribe to the entry's disposal. */
    method Place(newItem: StatusBarEntry)
      modifies this`left, this`center, this`right, newItem`disposedHandlers
      ensures Layout() == PlaceInto(old(Layout()), newItem)
      ensures newItem.disposedHandlers == old(newItem.disposedHandlers) + [this]
    {
      match newItem.alignment {
        case Center =>
          var insertIndex := GetInsertIndex(center, newItem.priority);
          center := InsertAt(center, insertIndex, EntryChild(newItem));
        case Right =>
          var insertIndex := GetInsertIndex(right, newItem.priority);
          right := InsertAt(right, insertIndex, EntryChild(newItem));
        case Left =>
          var insertIndex := GetInsertIndex(left, newItem.priority);
          left := InsertAt(left, insertIndex, EntryChild(newItem));
      }
      newItem.disposedHandlers := newItem.disposedHandlers + [this];
    }

    /** OnLoaded: drain the queue, first in first out, placing each entry. */
    method OnLoaded()
      requires Valid()
      modifies this`isLoaded, this`pendingItems, this`left, this`center, this`right
      modifies pendingItems`disposedHandlers
      ensures Valid() && isLoaded && pendingItems == []
      ensures Layout() == PlaceAll(old(Layout()), old(pendingItems))
      ensures forall e: StatusBarEntry :: e in old(pendingItems) ==>
        e.disposedHandlers == old(e.disposedHandlers) + Repeat(this, Occurrences(old(pendingItems), e, |old(pendingItems)|))
    {
      isLoaded := true;
      ghost var queued := pendingItems;
      ghost var subscribers := map e | e in queued :: e.disposedHandlers;
      ghost var n := 0;
      while pendingItems != []
        invariant isLoaded
        invariant n <= |queued| && pendingItems == queued[n..]
        invariant PlaceAll(old(Layout()), queued) == PlaceAll(Layout(), pendingItems)
        invariant forall e: StatusBarEntry :: e in queued ==>
          e in subscribers && e.disposedHandlers == subscribers[e] + Repeat(this, Occurrences(queued, e, n))
        decreases |pendingItems|
      {
        DequeueAndPlace(queued, n, subscribers);
        n := n + 1;
      }
      assert n == |queued|;
      PlaceAllKeepsSorted(old(Layout()), queued);
    }

    /** One round of OnLoaded: dequeue the head of the queue and place it. */
    method DequeueAndPlace(ghost queued: seq<StatusBarEntry>, ghost n: nat,
                           ghost subscribers: map<StatusBarEntry, seq<StatusBarContainer>>)
      requires n < |queued| && pendingItems == queued[n..]
      requires forall e: StatusBarEntry :: e in queued ==>
        e in subscribers && e.disposedHandlers == subscribers[e] + Repeat(this, Occurrences(queued, e, n))
      modifies this`pendingItems, this`left, this`center, this`right, {queued[n]}`disposedHandlers
      ensures pendingItems == queued[n + 1..]
      ensures PlaceAll(old(Layout()), old(pendingItems)) == PlaceAll(Layout(), pendingItems)
      ensures forall e: StatusBarEntry :: e in queued ==>
        e in subscribers && e.disposedHandlers == subscribers[e] + Repeat(this, Occurrences(queued, e, n + 1))
    {
      var item := pendingItems[0];
      pendingItems := pendingItems[1..];
      Place(item);
      forall e: StatusBarEntry | e in queued
        ensures e.disposedHandlers == subscribers[e] + Repeat(this, Occurrences(queued, e, n + 1))
      {
        var k := Occurrences(queued, e, n);
        if e == item {
          assert Occurrences(queued, e, n + 1) == k + 1;
          SubscribedOnceMore(subscribers[e], old(e.disposedHandlers), e.disposedHandlers, this, k);
        } else {
          assert Occurrences(queued, e, n + 1) == k;
          assert e.disposedHandlers == old(e.disposedHandlers);
        }
      }
    }

    /** OnStatusBarItemDisposed: unsubscribe, then remove the entry from all
        three regions, a no-op in a region that lacks it. */
    method OnStatusBarItemDisposed(item: StatusBarEntry)
      modifies this`left, this`center, this`right, item`disposedHandlers
      ensures Layout() == RemoveFromAll(old(Layout()), item)
      ensures item.disposedHandlers == RemoveLast(old(item.disposedHandlers), this)
      ensures old(Valid()) ==> Valid()
    {
      item.disposedHandlers := RemoveLast(item.disposedHandlers, this);
      if Valid() {
        RemoveKeepsSorted(left, EntryChild(item));
        RemoveKeepsSorted(center, EntryChild(item));
        RemoveKeepsSorted(right, EntryChild(item));
      }
      left := RemoveFirst(left, EntryChild(item));
      center := RemoveFirst(center, EntryChild(item));
      right := RemoveFirst(right, EntryChild(item));
    }
  }
}

=== FILE: icon_text.dfy ===
/**
 * The inline icon-token grammar of status-bar text and the three things the
 * library does with it: split a text into inline segments (what a status-bar
 * entry renders), substitute glyphs for tokens (the ResolveIcon converter) and
 * test whether a text holds a token (the TextHasIcon converters).
 *
 * A token is `$(`, one or more characters other than `)`, then `)`, found
 * leftmost-first and without overlap, as the pattern `\$\(([^)]+)\)` does.
 * The glyph catalog is a parameter: it maps an icon name to its glyph, or to
 * None for a name it does not know.
 */
module IconText {
  import opened Wrappers

  /** The icon catalog: icon name to glyph, None when unknown. */
  type Catalog = string -> Option<string>

  /** One inline of rendered status-bar text. */
  datatype Segment = Literal(text: string) | Icon(name: string, spin: bool)

  const SpinSuffix: string := "~spin"

  // ---------------------------------------------------------------------------
  // The token grammar
  // ---------------------------------------------------------------------------

  /** `t` is exactly one token: `$(`, a non-empty run without `)`, then `)`. */
  predicate IsToken(t: string) {
    && |t| >= 4
    && t[0] == '$' && t[1] == '(' && t[|t| - 1] == ')'
    && forall k :: 2 <= k < |t| - 1 ==> t[k] != ')'
  }

  /** The position of the first `)` at or after `k`, if there is one. */
  function FirstClose(s: string, k: nat): (r: Option<nat>)
    ensures r.Some? ==> k <= r.value < |s| && s[r.value] == ')'
    ensures forall j :: k <= j < (if r.Some? then r.value else |s|) ==> s[j] != ')'
    decreases |s| - k
  {
    if k >= |s| then None
    else if s[k] == ')' then Some(k)
    else FirstClose(s, k + 1)
  }

  /** The end (exclusive) of the token that starts at `i`, if one does. */
  function MatchAt(s: string, i: nat): (r: Option<nat>)
    ensures r.Some? ==> i + 4 <= r.value <= |s| && s[i] == '$' && s[r.value - 1] == ')'
  {
    if i + 1 < |s| && s[i] == '$' && s[i + 1] == '(' then
      match FirstClose(s, i + 2)
      case Some(j) => if j > i + 2 then Some(j + 1) else None
      case None => None
    else
      None
  }

  /** A token starts at `i` and ends at `e` exactly when `s[i..e]` is a token. */
  lemma MatchAtIsToken(s: string, i: nat, e: nat)
    requires i <= e <= |s|
    ensures MatchAt(s, i) == Some(e) <==> IsToken(s[i..e])
  {
    if IsToken(s[i..e]) {
      var t := s[i..e];
      assert s[i] == t[0] && s[i + 1] == t[1] && s[e - 1] == t[|t| - 1];
      forall j | i + 2 <= j < e - 1
        ensures s[j] != ')'
      {
        assert s[j] == t[j - i];
      }
      var r := FirstClose(s, i + 2);
      assert r == Some(e - 1);
    }
  }

  /** The leftmost token start at or after `from`. */
  function NextMatch(s: string, from: nat): (r: Option<nat>)
    ensures r.Some? ==> from <= r.value < |s| && MatchAt(s, r.value).Some?
    ensures forall k :: from <= k < (if r.Some? then r.value else |s|) ==> MatchAt(s, k).None?
    decreases |s| - from
  {
    if from >= |s| then None
    else if MatchAt(s, from).Some? then Some(from)
    else NextMatch(s, from + 1)
  }

  /** Whether `s` holds a token anywhere (the pattern's IsMatch). */
  predicate HasToken(s: string)
  {
    NextMatch(s, 0).Some?
  }

  lemma HasTokenIff(s: string)
    ensures HasToken(s) <==> exists i :: 0 <= i < |s| && MatchAt(s, i).Some?
  {
  }

  /** The successive matches from `from` on, as (start, end) pairs: each search
      resumes where the previous match ended (the pattern's Matches). */
  function MatchesFrom(s: string, from: nat): (ms: seq<(nat, nat)>)
    ensures forall k :: 0 <= k < |ms| ==> from <= ms[k].0 && MatchAt(s, ms[k].0) == Some(ms[k].1)
    ensures forall k :: 0 < k < |ms| ==> ms[k - 1].1 <= ms[k].0
    decreases |s| - from
  {
    match NextMatch(s, from)
    case None => []
    case Some(m) =>
      var e := MatchAt(s, m).value;
      [(m, e)] + MatchesFrom(s, e)
  }

  /** Leftmost-first: no token starts between the end of one match (or `from`)
      and the start of the next. */
  lemma {:induction false} MatchesAreLeftmost(s: string, from: nat, k: nat, j: nat)
    requires k < |MatchesFrom(s, from)|
    requires (if k == 0 then from else MatchesFrom(s, from)[k - 1].1) <= j < MatchesFrom(s, from)[k].0
    ensures MatchAt(s, j).None?
    decreases |s| - from
  {
    var m := NextMatch(s, from).value;
    var e := MatchAt(s, m).value;
    assert MatchesFrom(s, from) == [(m, e)] + MatchesFrom(s, e);
    if k > 0 {
      MatchesAreLeftmost(s, e, k - 1, j);
    }
  }

  /** No match is left out at the end: after the last listed match (or from
      `from`, when none is listed) no token starts. */
  lemma {:induction false} MatchesAreExhaustive(s: string, from: nat, j: nat)
    requires (if |MatchesFrom(s, from)| == 0 then from else MatchesFrom(s, from)[|MatchesFrom(s, from)| - 1].1) <= j
    ensures MatchAt(s, j).None?
    decreases |s| - from
  {
    match NextMatch(s, from)
    case None =>
      if j < |s| {
        assert from <= j;
      }
    case Some(m) =>
      var e := MatchAt(s, m).value;
      var rest := MatchesFrom(s, e);
      assert MatchesFrom(s, from) == [(m, e)] + rest;
      if rest != [] {
        assert MatchesFrom(s, from)[|MatchesFrom(s, from)| - 1] == rest[|rest| - 1];
      }
      MatchesAreExhaustive(s, e, j);
  }

  // ---------------------------------------------------------------------------
  // Splitting text into inlines (StatusBarEntry.OnTextChanged)
  // ---------------------------------------------------------------------------

  function EndsWith(s: string, suffix: string): bool {
    |suffix| <= |s| && s[|s| - |suffix|..] == suffix
  }

  /** What a token holds between `$(` and `)` (the pattern's group 1). */
  function Inner(token: string): string
    requires IsToken(token)
  {
    token[2..|token| - 1]
  }

  /** A token is `$(`, its inner text, then `)`. */
  lemma TokenShape(token: string)
    requires IsToken(token)
    ensures token == "$(" + Inner(token) + ")"
  {
    assert token == token[..2] + token[2..|token| - 1] + token[|token| - 1..];
  }

  /** The inner text of a token found inside `s`, read off `s` directly. */
  lemma InnerOfSlice(s: string, m: nat, e: nat)
    requires m <= e <= |s| && IsToken(s[m..e])
    ensures Inner(s[m..e]) == s[m + 2..e - 1]
  {
    var t := s[m..e];
    var inner, mid := t[2..|t| - 1], s[m + 2..e - 1];
    assert |inner| == |mid|;
    forall k | 0 <= k < |inner|
      ensures inner[k] == mid[k]
    {
      assert inner[k] == t[k + 2] == s[m + k + 2];
    }
  }

  /** A token's icon name: its inner text with a trailing `~spin` removed. */
  function StrippedName(token: string): string
    requires IsToken(token)
  {
    var inner := Inner(token);
    if EndsWith(inner, SpinSuffix) then inner[..|inner| - |SpinSuffix|] else inner
  }

  /** The inline for a token met where the previous match ended: an icon when
      the catalog knows its name (a trailing `~spin` stripped and recorded),
      otherwise the token itself as text. */
  function TokenSegment(token: string, catalog: Catalog): (seg: Segment)
    requires IsToken(token)
    ensures seg.Icon? <==> catalog(StrippedName(token)).Some?
    ensures seg.Icon? ==> seg == Icon(StrippedName(token), EndsWith(Inner(token), SpinSuffix))
    ensures seg.Icon? ==> catalog(seg.name).Some?
    ensures seg.Literal? ==> seg.text == token
  {
    var spin := EndsWith(Inner(token), SpinSuffix);
    var name := StrippedName(token);
    if catalog(name).Some? then Icon(name, spin) else Literal(token)
  }

  /** The inlines for `s[last..]`, following the library's loop as written: a
      match preceded by unconsumed text contributes only that text, and the
      token itself is dropped. */
  function ScanFrom(s: string, last: nat, catalog: Catalog): (r: seq<Segment>)
    requires last <= |s|
    ensures r == [] <==> last == |s|
    decreases |s| - last
  {
    match NextMatch(s, last)
    case None =>
      if last < |s| then [Literal(s[last..])] else []
    case Some(m) =>
      var e := MatchAt(s, m).value;
      MatchAtIsToken(s, m, e);
      (if m > last then [Literal(s[last..m])] else [TokenSegment(s[m..e], catalog)])
        + ScanFrom(s, e, catalog)
  }

  /** The inlines of a status text: none for empty text or text without a token. */
  function Parse(s: string, catalog: Catalog): (r: seq<Segment>)
    ensures r == [] <==> !HasToken(s)
  {
    if |s| == 0 || !HasToken(s) then [] else ScanFrom(s, 0, catalog)
  }

  /** One step of the walk: the first remaining match and what it contributes. */
  lemma ScanStep(s: string, last: nat, catalog: Catalog, m: nat, e: nat)
    requires last <= |s| && MatchesFrom(s, last) != [] && MatchesFrom(s, last)[0] == (m, e)
    ensures last <= m <= e <= |s| && IsToken(s[m..e])
    ensures MatchesFrom(s, last)[1..] == MatchesFrom(s, e)
    ensures ScanFrom(s, last, catalog)
         == (if m > last then [Literal(s[last..m])] else [TokenSegment(s[m..e], catalog)]) + ScanFrom(s, e, catalog)
  {
    MatchAtIsToken(s, m, e);
  }

  /** Moving one segment from the remainder to the part already built.
      This and the other small sequence lemmas below state one rewriting
      step on their own, so that the proofs using them stay cheap. */
  lemma ScanAdvance(done: seq<Segment>, seg: Segment, rest: seq<Segment>, after: seq<Segment>)
    requires rest == [seg] + after
    ensures done + rest == (done + [seg]) + after
  {
  }

  /** Stepping along a suffix of a sequence (a rewriting step kept apart to
      keep the loop proofs cheap). */
  lemma SuffixStep<T>(a: seq<T>, k: nat, b: seq<T>)
    requires k < |a| && a[k..] == b
    ensures b != [] && b[0] == a[k] && a[k + 1..] == b[1..]
  {
  }

  /** With no match left, only the trailing text remains. */
  lemma ScanEnd(s: string, last: nat, catalog: Catalog)
    requires last <= |s| && MatchesFrom(s, last) == []
    ensures ScanFrom(s, last, catalog) == if last < |s| then [Literal(s[last..])] else []
  {
  }

  /** The loop of OnTextChanged: walk the matches, tracking where the previous
      one ended, then add the trailing text. */
  method BuildInlines(statusText: string, catalog: Catalog) returns (inlines: seq<Segment>)
    ensures inlines == Parse(statusText, catalog)
  {
    if |statusText| == 0 || !HasToken(statusText) {
      return [];
    }
    var matches := MatchesFrom(statusText, 0);
    inlines := [];
    var lastIndex: nat := 0;
    for k := 0 to |matches|
      invariant lastIndex <= |statusText|
      invariant matches[k..] == MatchesFrom(statusText, lastIndex)
      invariant inlines + ScanFrom(statusText, lastIndex, catalog) == ScanFrom(statusText, 0, catalog)
    {
      SuffixStep(matches, k, MatchesFrom(statusText, lastIndex));
      var (index, end) := matches[k];
      ScanStep(statusText, lastIndex, catalog, index, end);
      var inline: Segment;
      if index > lastIndex {
        inline := Literal(statusText[lastIndex..index]);
      } else {
        inline := TokenSegment(statusText[index..end], catalog);
      }
      ScanAdvance(inlines, inline, ScanFrom(statusText, lastIndex, catalog), ScanFrom(statusText, end, catalog));
      inlines := inlines + [inline];
      lastIndex := end;
    }
    ScanEnd(statusText, lastIndex, catalog);
    if lastIndex < |statusText| {
      inlines := inlines + [Literal(statusText[lastIndex..])];
    }
  }

  // ---------------------------------------------------------------------------
  // Properties of the split
  // ---------------------------------------------------------------------------

  /** Every match yields exactly one inline; the trailing text at most one more. */
  lemma {:induction false} OneSegmentPerMatch(s: string, p: nat, catalog: Catalog)
    requires p <= |s|
    ensures |MatchesFrom(s, p)| <= |ScanFrom(s, p, catalog)| <= |MatchesFrom(s, p)| + 1
    decreases |s| - p
  {
    match NextMatch(s, p)
    case None =>
    case Some(m) =>
      OneSegmentPerMatch(s, MatchAt(s, m).value, catalog);
  }

  /** No inline is an empty literal, and every icon is one the catalog knows. */
  lemma {:induction false} SegmentsWellFormed(s: string, p: nat, catalog: Catalog)
    requires p <= |s|
    ensures forall seg :: seg in ScanFrom(s, p, catalog) ==>
      (seg.Literal? ==> seg.text != []) && (seg.Icon? ==> catalog(seg.name).Some?)
    decreases |s| - p
  {
    match NextMatch(s, p)
    case None =>
    case Some(m) =>
      var e := MatchAt(s, m).value;
      MatchAtIsToken(s, m, e);
      SegmentsWellFormed(s, e, catalog);
  }

  /** The text an inline was produced from. */
  function SourceText(seg: Segment): string {
    match seg
    case Literal(t) => t
    case Icon(n, sp) => "$(" + n + (if sp then SpinSuffix else "") + ")"
  }

  function Flatten(segs: seq<Segment>): string {
    if segs == [] then [] else SourceText(segs[0]) + Flatten(segs[1..])
  }

  /** Every match starts exactly where the previous one (or `p`) ended. */
  predicate TokensAdjacent(s: string, p: nat)
    decreases |s| - p
  {
    match NextMatch(s, p)
    case None => true
    case Some(m) => m == p && TokensAdjacent(s, MatchAt(s, m).value)
  }

  /** An inline made from a token reproduces that token. */
  lemma TokenSegmentSourceText(token: string, catalog: Catalog)
    requires IsToken(token)
    ensures SourceText(TokenSegment(token, catalog)) == token
  {
    var inner := Inner(token);
    var seg := TokenSegment(token, catalog);
    if seg.Icon? {
      assert seg.name + (if seg.spin then SpinSuffix else "") == inner by {
        if seg.spin {
          var cut := |inner| - |SpinSuffix|;
          assert inner == inner[..cut] + inner[cut..];
        }
      }
      TokenShape(token);
    }
  }

  lemma {:induction false} FlattenConcat(a: seq<Segment>, b: seq<Segment>)
    ensures Flatten(a + b) == Flatten(a) + Flatten(b)
  {
    if a == [] {
      assert a + b == b;
    } else {
      assert (a + b)[0] == a[0];
      assert (a + b)[1..] == a[1..] + b;
      FlattenConcat(a[1..], b);
    }
  }

  /** The text of the inlines from `p`: the gap before the first match, or the
      match itself when there is no gap, then the text of the inlines after it. */
  lemma FlattenStep(s: string, p: nat, catalog: Catalog)
    requires p <= |s| && NextMatch(s, p).Some?
    ensures var m := NextMatch(s, p).value;
      var e := MatchAt(s, m).value;
      Flatten(ScanFrom(s, p, catalog)) == (if m > p then s[p..m] else s[m..e]) + Flatten(ScanFrom(s, e, catalog))
  {
    var m := NextMatch(s, p).value;
    var e := MatchAt(s, m).value;
    MatchAtIsToken(s, m, e);
    var head := if m > p then [Literal(s[p..m])] else [TokenSegment(s[m..e], catalog)];
    FlattenConcat(head, ScanFrom(s, e, catalog));
    TokenSegmentSourceText(s[m..e], catalog);
    assert Flatten(head) == SourceText(head[0]);
  }

  /** The inlines never hold more text than the input they came from. */
  lemma {:induction false} FlattenNoLonger(s: string, p: nat, catalog: Catalog)
    requires p <= |s|
    ensures |Flatten(ScanFrom(s, p, catalog))| <= |s| - p
    decreases |s| - p
  {
    match NextMatch(s, p)
    case None =>
    case Some(m) =>
      FlattenStep(s, p, catalog);
      FlattenNoLonger(s, MatchAt(s, m).value, catalog);
  }

  /** Text before the next match: the inlines come out shorter than the input,
      because that token is dropped. */
  lemma GapLosesText(s: string, p: nat, catalog: Catalog)
    requires p <= |s| && NextMatch(s, p).Some? && NextMatch(s, p).value > p
    ensures |Flatten(ScanFrom(s, p, catalog))| < |s| - p
  {
    var m := NextMatch(s, p).value;
    var e := MatchAt(s, m).value;
    MatchAtIsToken(s, m, e);
    FlattenStep(s, p, catalog);
    FlattenNoLonger(s, e, catalog);
  }

  /** A match right at `p`: the inlines reproduce `s[p..]` exactly when those
      after the match reproduce the rest. */
  lemma AdjacentStep(s: string, p: nat, catalog: Catalog)
    requires p <= |s| && NextMatch(s, p) == Some(p)
    ensures var e := MatchAt(s, p).value;
      e <= |s| && (Flatten(ScanFrom(s, p, catalog)) == s[p..] <==> Flatten(ScanFrom(s, e, catalog)) == s[e..])
  {
    var e := MatchAt(s, p).value;
    FlattenStep(s, p, catalog);
    assert s[p..] == s[p..e] + s[e..];
    PrefixCancel(s[p..e], Flatten(ScanFrom(s, e, catalog)), s[e..]);
  }

  /** Cancelling a common prefix (a rewriting step kept apart to keep the
      proofs using it cheap). */
  lemma PrefixCancel<T>(a: seq<T>, b: seq<T>, c: seq<T>)
    ensures a + b == a + c <==> b == c
  {
    if a + b == a + c {
      assert b == (a + b)[|a|..] && c == (a + c)[|a|..];
    }
  }

  /** The inlines reproduce the input text exactly when every token follows the
      previous one directly: a token preceded by other text is lost. */
  lemma {:induction false} ScanReproducesTextIffAdjacent(s: string, p: nat, catalog: Catalog)
    requires p <= |s|
    ensures Flatten(ScanFrom(s, p, catalog)) == s[p..] <==> TokensAdjacent(s, p)
    decreases |s| - p
  {
    match NextMatch(s, p)
    case None =>
    case Some(m) =>
      if m > p {
        GapLosesText(s, p, catalog);
      } else {
        AdjacentStep(s, p, catalog);
        ScanReproducesTextIffAdjacent(s, MatchAt(s, m).value, catalog);
      }
  }

  // ---------------------------------------------------------------------------
  // Worked examples
  // ---------------------------------------------------------------------------

  /** FirstClose is pinned down by its contract. */
  lemma FirstCloseIs(s: string, k: nat, j: nat)
    requires k <= j < |s| && s[j] == ')'
    requires forall i :: k <= i < j ==> s[i] != ')'
    ensures FirstClose(s, k) == Some(j)
  {
  }

  /** NextMatch is pinned down by its contract. */
  lemma NextMatchIs(s: string, from: nat, m: nat)
    requires from <= m < |s| && MatchAt(s, m).Some?
    requires forall k :: from <= k < m ==> MatchAt(s, k).None?
    ensures NextMatch(s, from) == Some(m)
  {
  }

  /** No token starts where there is no `$`. */
  lemma NoDollarNoMatch(s: string, from: nat, to: nat)
    requires from <= to <= |s|
    requires forall k :: from <= k < to ==> s[k] != '$'
    ensures forall k :: from <= k < to ==> MatchAt(s, k).None?
    ensures to == |s| ==> NextMatch(s, from) == None
  {
  }

  /** Where the one token of the example text lies. */
  lemma HelloWorldMatches(s: string)
    requires s == "Hello $(check) world"
    ensures NextMatch(s, 0) == Some(6) && MatchAt(s, 6) == Some(14) && NextMatch(s, 14) == None
  {
    assert s[8..13] == "check";
    FirstCloseIs(s, 8, 13);
    NoDollarNoMatch(s, 0, 6);
    NextMatchIs(s, 0, 6);
    NoDollarNoMatch(s, 14, |s|);
  }

  /** Literal text before a token: the token yields no inline at all, whatever
      the catalog holds. */
  lemma HelloWorldDropsToken(catalog: Catalog)
    ensures Parse("Hello $(check) world", catalog) == [Literal("Hello "), Literal(" world")]
  {
    var s := "Hello $(check) world";
    HelloWorldMatches(s);
    assert ScanFrom(s, 0, catalog) == [Literal(s[0..6])] + ScanFrom(s, 14, catalog);
    assert s[0..6] == "Hello " && s[14..] == " world";
  }

  /** A spinning known icon on its own. */
  lemma SpinningIcon(catalog: Catalog)
    requires catalog("sync").Some?
    ensures Parse("$(sync~spin)", catalog) == [Icon("sync", true)]
  {
    var s := "$(sync~spin)";
    assert s[2..11] == "sync~spin";
    FirstCloseIs(s, 2, 11);
    assert MatchAt(s, 0) == Some(12);
    NextMatchIs(s, 0, 0);
    assert NextMatch(s, 12) == None;
    var inner := s[2..11];
    assert EndsWith(inner, SpinSuffix);
    assert inner[..|inner| - |SpinSuffix|] == "sync";
    assert s[0..12] == s;
  }

  /** An unknown icon degrades to its token text. */
  lemma UnknownIconIsLiteral(catalog: Catalog)
    requires catalog("unknown-name").None?
    ensures Parse("$(unknown-name)", catalog) == [Literal("$(unknown-name)")]
  {
    var s := "$(unknown-name)";
    assert s[2..14] == "unknown-name";
    FirstCloseIs(s, 2, 14);
    assert MatchAt(s, 0) == Some(15);
    NextMatchIs(s, 0, 0);
    assert NextMatch(s, 15) == None;
    var inner := s[2..14];
    assert inner[|inner| - 5..] == "-name";
    assert !EndsWith(inner, SpinSuffix);
    assert s[0..15] == s;
  }

  /** `$()` is not a token, so it yields no inlines. */
  lemma EmptyParensAreNoToken(catalog: Catalog)
    ensures Parse("$()", catalog) == []
  {
    assert FirstClose("$()", 2) == Some(2);
  }

  // ---------------------------------------------------------------------------
  // The converters
  // ---------------------------------------------------------------------------

  /** The glyph substituted for the match at `m`..`e`: the catalog's glyph for
      the whole inner name (a `~spin` suffix is not stripped), otherwise the
      whole input text. */
  function Replacement(s: string, m: nat, e: nat, catalog: Catalog): string
    requires m + 4 <= e <= |s|
  {
    match catalog(s[m + 2..e - 1])
    case Some(glyph) => glyph
    case None => s
  }

  /** `s[p..]` with every match replaced: the text before the first match is
      kept as it is, and text without a match is kept whole. */
  function ResolveFrom(s: string, p: nat, catalog: Catalog): (r: string)
    requires p <= |s|
    ensures NextMatch(s, p).None? ==> r == s[p..]
    ensures NextMatch(s, p).Some? ==> s[p..NextMatch(s, p).value] <= r
    decreases |s| - p
  {
    match NextMatch(s, p)
    case None => s[p..]
    case Some(m) =>
      var e := MatchAt(s, m).value;
      s[p..m] + Replacement(s, m, e, catalog) + ResolveFrom(s, e, catalog)
  }

  /** The replacement rule, for every text and position: the next match is
      replaced by the catalog's glyph for its whole inner text (`~spin`
      included), or by the whole input text when the catalog does not know it;
      the text around it is kept. */
  lemma ResolveStep(s: string, p: nat, catalog: Catalog)
    requires p <= |s|
    ensures NextMatch(s, p).None? ==> ResolveFrom(s, p, catalog) == s[p..]
    ensures NextMatch(s, p).Some? ==>
      var m := NextMatch(s, p).value;
      var e := MatchAt(s, m).value;
      var name := s[m + 2..e - 1];
      && IsToken(s[m..e]) && name == Inner(s[m..e])
      && ResolveFrom(s, p, catalog)
         == s[p..m] + (if catalog(name).Some? then catalog(name).value else s) + ResolveFrom(s, e, catalog)
  {
    if NextMatch(s, p).Some? {
      var m := NextMatch(s, p).value;
      var e := MatchAt(s, m).value;
      MatchAtIsToken(s, m, e);
      InnerOfSlice(s, m, e);
      assert ResolveFrom(s, p, catalog) == s[p..m] + Replacement(s, m, e, catalog) + ResolveFrom(s, e, catalog);
    }
  }

  /** The catalog that maps every name back to its own token. */
  function Echo(name: string): Option<string> {
    Some("$(" + name + ")")
  }

  /** With a catalog that gives every name back as its own token, replacing
      reproduces the text: the rule replaces exactly the matches and keeps
      every other character. */
  lemma {:induction false} ResolveEchoIsIdentity(s: string, p: nat)
    requires p <= |s|
    ensures ResolveFrom(s, p, Echo) == s[p..]
    decreases |s| - p
  {
    match NextMatch(s, p)
    case None =>
    case Some(m) =>
      var e := MatchAt(s, m).value;
      MatchAtIsToken(s, m, e);
      TokenShape(s[m..e]);
      InnerOfSlice(s, m, e);
      assert Replacement(s, m, e, Echo) == s[m..e];
      ResolveEchoIsIdentity(s, e);
      assert s[p..] == s[p..m] + s[m..e] + s[e..];
  }

  /** ResolveIconConverter: empty (or null) text gives the empty string. */
  function ResolveIcon(text: Option<string>, catalog: Catalog): (r: string)
    ensures text.None? || text.value == [] ==> r == []
    ensures text.Some? && !HasToken(text.value) ==> r == text.value
    ensures text.Some? && text.value != [] ==> r == ResolveFrom(text.value, 0, catalog)
  {
    if text.None? || |text.value| == 0 then "" else ResolveFrom(text.value, 0, catalog)
  }

  /** The converter is the identity for the catalog that echoes every token. */
  lemma ResolveIconEcho(s: string)
    ensures ResolveIcon(Some(s), Echo) == s
  {
    if s != [] {
      ResolveEchoIsIdentity(s, 0);
    }
  }

  /** A known token in context is replaced by its glyph. */
  lemma ResolveKnown(catalog: Catalog)
    requires catalog("x").Some?
    ensures ResolveIcon(Some("a$(x)b"), catalog) == "a" + catalog("x").value + "b"
  {
    var s := "a$(x)b";
    FirstCloseIs(s, 3, 4);
    assert MatchAt(s, 1) == Some(5);
    assert s[0] != '$';
    NextMatchIs(s, 0, 1);
    assert NextMatch(s, 5) == None;
    assert s[3..4] == "x";
  }

  /** An unknown token in context is replaced by the whole input text. */
  lemma ResolveUnknownRepeatsText(catalog: Catalog)
    requires catalog("x").None?
    ensures ResolveIcon(Some("a$(x)b"), catalog) == "a" + "a$(x)b" + "b"
  {
    var s := "a$(x)b";
    FirstCloseIs(s, 3, 4);
    assert MatchAt(s, 1) == Some(5);
    assert s[0] != '$';
    NextMatchIs(s, 0, 1);
    assert NextMatch(s, 5) == None;
    assert s[3..4] == "x";
  }

  /** The converter looks the inner name up with any `~spin` suffix kept. */
  lemma ResolveKeepsSpinSuffix(catalog: Catalog)
    ensures ResolveIcon(Some("$(sync~spin)"), catalog)
      == if catalog("sync~spin").Some? then catalog("sync~spin").value else "$(sync~spin)"
  {
    var s := "$(sync~spin)";
    assert s[2..11] == "sync~spin";
    FirstCloseIs(s, 2, 11);
    assert MatchAt(s, 0) == Some(12);
    NextMatchIs(s, 0, 0);
    assert NextMatch(s, 12) == None;
  }

  /** TextHasIconConverter: a non-empty text in which some position starts a
      token. */
  predicate TextHasIcon(text: Option<string>)
    ensures TextHasIcon(text) <==>
      text.Some? && exists i :: 0 <= i < |text.value| && MatchAt(text.value, i).Some?
  {
    text.Some? && |text.value| > 0 && HasToken(text.value)
  }

  /** TextHasIconReverseConverter: the exact negation of TextHasIcon. */
  function TextHasIconReverse(text: Option<string>): (r: bool)
    ensures r <==> !TextHasIcon(text)
  {
    text.None? || |text.value| == 0 || !HasToken(text.value)
  }

  /** A text has an icon exactly when the entry would render inlines for it. */
  lemma HasIconIffInlines(s: string, catalog: Catalog)
    ensures TextHasIcon(Some(s)) <==> Parse(s, catalog) != []
  {
  }
}

=== FILE: item.dfy ===
/**
 * The handle a caller receives for one status-bar entry. It keeps its own
 * copy of each visual property it has been given, forwards every change to
 * the entry, and refuses all changes once disposed.
 */
module Items {
  import opened Wrappers
  import opened StatusBarTypes
  import IconText
  import opened Controls

  class StatusBarItem {
    const id: string
    const alignment: StatusBarAlignment
    const priority: int
    var text: Option<string>
    var toolTip: Option<string>
    var click: Option<ClickAction>
    var color: Option<Brush>
    var backgroundColor: Option<Brush>
    var fontWeight: FontWeight
    var entry: StatusBarEntry?
    var isDisposed: bool

    /** A handle over `entry`, as the library builds it. The entry's visual
        properties are assigned through the handle's setters before the entry
        is stored, and every setter returns at once while no entry is held, so
        they all keep their defaults: null, and the zero font weight. */
    constructor (entry: StatusBarEntry)
      ensures id == entry.id && alignment == entry.alignment && priority == entry.priority
      ensures text == None && toolTip == None && click == None
      ensures color == None && backgroundColor == None && fontWeight == UnsetFontWeight
      ensures this.entry == entry && !isDisposed
    {
      id, alignment, priority := entry.id, entry.alignment, entry.priority;
      text, toolTip, click := None, None, None;
      color, backgroundColor, fontWeight := None, None, UnsetFontWeight;
      this.entry := entry;
      isDisposed := false;
    }

    /** The evidently intended handle: a snapshot of the entry's visual
        properties, which every setter then keeps in step with the entry. */
    constructor Snapshot(entry: StatusBarEntry)
      ensures id == entry.id && alignment == entry.alignment && priority == entry.priority
      ensures this.entry == entry && !isDisposed && Mirrors()
    {
      id, alignment, priority := entry.id, entry.alignment, entry.priority;
      text, toolTip, click := Some(entry.text), Some(entry.toolTip), entry.click;
      color, backgroundColor, fontWeight := entry.color, entry.backgroundColor, entry.fontWeight;
      this.entry := entry;
      isDisposed := false;
    }

    /** The handle holds its entry, and its own copy of every visual property
        agrees with the entry's. */
    predicate Mirrors()
      reads this, entry
    {
      && entry != null
      && text == Some(entry.text) && toolTip == Some(entry.toolTip) && click == entry.click
      && color == entry.color && backgroundColor == entry.backgroundColor
      && fontWeight == entry.fontWeight
    }

    /** The entry, while the handle still holds it. */
    function Live(): set<StatusBarEntry>
      reads this
    {
      if entry == null then {} else {entry}
    }

    /** Setting Text: refused once disposed, ignored without an entry,
        otherwise kept here and written to the entry, which re-renders. */
    method SetText(value: string, catalog: IconText.Catalog) returns (r: Outcome<Exception>)
      modifies this`text, Live()`text, Live()`inlines
      ensures isDisposed ==> r == Fail(ObjectDisposedException)
      ensures !isDisposed ==> r == Pass
      ensures isDisposed || entry == null ==> text == old(text) && (entry != null ==> unchanged(entry))
      ensures !isDisposed && entry != null ==>
        && text == Some(value) && entry.text == value
        && entry.inlines == if entry.hasRichText then IconText.Parse(value, catalog) else old(entry.inlines)
      ensures old(Mirrors()) ==> Mirrors()
    {
      if isDisposed {
        return Fail(ObjectDisposedException);
      }
      if entry == null {
        return Pass;
      }
      text := Some(value);
      entry.SetText(value, catalog);
      return Pass;
    }

    /** Setting ToolTip. */
    method SetToolTip(value: string) returns (r: Outcome<Exception>)
      modifies this`toolTip, Live()`toolTip
      ensures isDisposed ==> r == Fail(ObjectDisposedException)
      ensures !isDisposed ==> r == Pass
      ensures isDisposed || entry == null ==> toolTip == old(toolTip) && (entry != null ==> unchanged(entry))
      ensures !isDisposed && entry != null ==> toolTip == Some(value) && entry.toolTip == value
      ensures old(Mirrors()) ==> Mirrors()
    {
      if isDisposed {
        return Fail(ObjectDisposedException);
      }
      if entry == null {
        return Pass;
      }
      toolTip := Some(value);
      entry.toolTip := value;
      return Pass;
    }

    /** Setting Click. */
    method SetClick(value: Option<ClickAction>) returns (r: Outcome<Exception>)
      modifies this`click, Live()`click
      ensures isDisposed ==> r == Fail(ObjectDisposedException)
      ensures !isDisposed ==> r == Pass
      ensures isDisposed || entry == null ==> click == old(click) && (entry != null ==> unchanged(entry))
      ensures !isDisposed && entry != null ==> click == value && entry.click == value
      ensures old(Mirrors()) ==> Mirrors()
    {
      if isDisposed {
        return Fail(ObjectDisposedException);
      }
      if entry == null {
        return Pass;
      }
      click := value;
      entry.click := value;
      return Pass;
    }

    /** Setting Color. */
    method SetColor(value: Option<Brush>) returns (r: Outcome<Exception>)
      modifies this`color, Live()`color
      ensures isDisposed ==> r == Fail(ObjectDisposedException)
      ensures !isDisposed ==> r == Pass
      ensures isDisposed || entry == null ==> color == old(color) && (entry != null ==> unchanged(entry))
      ensures !isDisposed && entry != null ==> color == value && entry.color == value
      ensures old(Mirrors()) ==> Mirrors()
    {
      if isDisposed {
        return Fail(ObjectDisposedException);
      }
      if entry == null {
        return Pass;
      }
      color := value;
      entry.color := value;
      return Pass;
    }

    /** Setting BackgroundColor. */
    method SetBackgroundColor(value: Option<Brush>) returns (r: Outcome<Exception>)
      modifies this`backgroundColor, Live()`backgroundColor
      ensures isDisposed ==> r == Fail(ObjectDisposedException)
      ensures !isDisposed ==> r == Pass
      ensures isDisposed || entry == null ==>
        backgroundColor == old(backgroundColor) && (entry != null ==> unchanged(entry))
      ensures !isDisposed && entry != null ==> backgroundColor == value && entry.backgroundColor == value
      ensures old(Mirrors()) ==> Mirrors()
    {
      if isDisposed {
        return Fail(ObjectDisposedException);
      }
      if entry == null {
        return Pass;
      }
      backgroundColor := value;
      entry.backgroundColor := value;
      return Pass;
    }

    /** Setting FontWeight. */
    method SetFontWeight(value: FontWeight) returns (r: Outcome<Exception>)
      modifies this`fontWeight, Live()`fontWeight
      ensures isDisposed ==> r == Fail(ObjectDisposedException)
      ensures !isDisposed ==> r == Pass
      ensures isDisposed || entry == null ==> fontWeight == old(fontWeight) && (entry != null ==> unchanged(entry))
      ensures !isDisposed && entry != null ==> fontWeight == value && entry.fontWeight == value
      ensures old(Mirrors()) ==> Mirrors()
    {
      if isDisposed {
        return Fail(ObjectDisposedException);
      }
      if entry == null {
        return Pass;
      }
      fontWeight := value;
      entry.fontWeight := value;
      return Pass;
    }

    /** Reading Content: the entry's content, or nothing once the entry is
        gone; reading never fails. */
    function Content(): (c: Option<ContentObject>)
      reads this, entry
      ensures entry == null ==> c == None
      ensures entry != null ==> c == entry.content
    {
      if entry == null then None else entry.content
    }

    /** Setting Content writes through to the entry only; the handle keeps no copy. */
    method SetContent(value: Option<ContentObject>) returns (r: Outcome<Exception>)
      modifies Live()`content
      ensures isDisposed ==> r == Fail(ObjectDisposedException)
      ensures !isDisposed ==> r == Pass
      ensures isDisposed || entry == null ==> entry != null ==> unchanged(entry)
      ensures !isDisposed && entry != null ==> entry.content == value && Content() == value
    {
      if isDisposed {
        return Fail(ObjectDisposedException);
      }
      if entry == null {
        return Pass;
      }
      entry.content := value;
      return Pass;
    }

    /** Show: make the entry visible. */
    method Show() returns (r: Outcome<Exception>)
      modifies Live()`isShow
      ensures isDisposed ==> r == Fail(ObjectDisposedException)
      ensures !isDisposed ==> r == Pass
      ensures isDisposed && entry != null ==> unchanged(entry)
      ensures !isDisposed && entry != null ==> entry.isShow
    {
      if isDisposed {
        return Fail(ObjectDisposedException);
      }
      if entry == null {
        return Pass;
      }
      entry.isShow := true;
      return Pass;
    }

    /** Hide: make the entry invisible. */
    method Hide() returns (r: Outcome<Exception>)
      modifies Live()`isShow
      ensures isDisposed ==> r == Fail(ObjectDisposedException)
      ensures !isDisposed ==> r == Pass
      ensures isDisposed && entry != null ==> unchanged(entry)
      ensures !isDisposed && entry != null ==> !entry.isShow
    {
      if isDisposed {
        return Fail(ObjectDisposedException);
      }
      if entry == null {
        return Pass;
      }
      entry.isShow := false;
      return Pass;
    }

    /** The containers subscribed to the entry's disposal. */
    function Subscribers(): seq<StatusBarContainer>
      reads this, entry
    {
      if entry == null then [] else entry.disposedHandlers
    }

    /** Dispose: the first call on a live handle disposes the entry and drops
        it; any later call, or a call without an entry, does nothing. */
    method Dispose()
      modifies this`isDisposed, this`entry, Live()`isShow, Live()`disposedHandlers
      modifies Subscribers()`left, Subscribers()`center, Subscribers()`right
      ensures old(entry) == null || old(isDisposed) ==>
        && isDisposed == old(isDisposed) && entry == old(entry)
        && (entry != null ==> unchanged(entry))
      ensures old(entry) != null && !old(isDisposed) ==>
        && isDisposed && entry == null
        && !old(entry).isShow && old(entry).disposedHandlers == []
        && (forall c: StatusBarContainer :: c in old(entry.disposedHandlers) ==>
              c.Layout()
              == RemoveFromAllTimes(old(c.Layout()), old(entry), Occurrences(old(entry.disposedHandlers), c, |old(entry.disposedHandlers)|)))
        && (forall c: StatusBarContainer :: c in old(entry.disposedHandlers) && old(c.Valid()) ==> c.Valid())
    {
      if entry == null {
        return;
      }
      if isDisposed {
        return;
      }
      isDisposed := true;
      entry.Dispose();
      entry := null;
    }
  }

  /** The handle as the library builds it does not mirror its entry: right
      after construction its Text reads null, while the entry's Text is set. */
  method FreshHandleDoesNotMirror(entry: StatusBarEntry) returns (item: StatusBarItem)
    ensures item.entry == entry && item.text == None && item.text != Some(entry.text)
    ensures !item.Mirrors()
  {
    item := new StatusBarItem(entry);
  }
}

=== FILE: manager.dfy ===
/**
 * The registry: creates entries, queues them until a container is bound, and
 * delivers them to the container in creation order.
 */
module Manager {
  import opened Wrappers
  import opened StatusBarTypes
  import opened Controls
  import opened Items

  /** The handle SetStatusBarMessage returns: each Dispose disposes the entry
      again (the cancellation of the timer is not modelled). */
  class DisposableAction {
    const entry: StatusBarEntry

    constructor (entry: StatusBarEntry)
      ensures this.entry == entry
    {
      this.entry := entry;
    }

    method Dispose()
      modifies entry`isShow, entry`disposedHandlers
      modifies entry.disposedHandlers`left, entry.disposedHandlers`center, entry.disposedHandlers`right
      ensures !entry.isShow && entry.disposedHandlers == []
      ensures forall c: StatusBarContainer :: c in old(entry.disposedHandlers) ==>
        c.Layout()
        == RemoveFromAllTimes(old(c.Layout()), entry, Occurrences(old(entry.disposedHandlers), c, |old(entry.disposedHandlers)|))
      ensures forall c: StatusBarContainer :: c in old(entry.disposedHandlers) && old(c.Valid()) ==> c.Valid()
    {
      entry.Dispose();
    }
  }

  class StatusBarManager {
    var pendingItems: seq<StatusBarEntry>
    var container: StatusBarContainer?
    /** Every entry handed to AddStatusBarEntry, in order. */
    ghost var created: seq<StatusBarEntry>
    /** The entries handed on to the container, in order. */
    ghost var delivered: seq<StatusBarEntry>

    /** Entries are delivered in creation order: the delivered ones, then the
        queued ones, make up all that were created; nothing is delivered
        before a container is bound, and nothing stays queued after. */
    ghost predicate Valid()
      reads this, container
    {
      && created == delivered + pendingItems
      && (container == null ==> delivered == [])
      && (container != null ==> pendingItems == [] && container.Valid())
    }

    /** A manager with no container yet. */
    constructor ()
      ensures Valid() && container == null && pendingItems == [] && created == []
    {
      pendingItems, container := [], null;
      created, delivered := [], [];
    }

    /** A manager bound to `statusBarContainer` from the start. */
    constructor WithContainer(statusBarContainer: StatusBarContainer)
      requires statusBarContainer.Valid()
      ensures Valid() && container == statusBarContainer && pendingItems == [] && created == []
    {
      pendingItems, container := [], statusBarContainer;
      created, delivered := [], [];
    }

    /** The drain loop: hand every queued entry to the container, in order. */
    method Flush()
      requires container != null && container.Valid()
      modifies this`pendingItems, this`delivered, container`left, container`center, container`right, container`pendingItems, container`arrivals
      modifies pendingItems`disposedHandlers
      ensures pendingItems == [] && delivered == old(delivered) + old(pendingItems)
      ensures container.Valid() && container.isLoaded == old(container.isLoaded)
      ensures container.arrivals == old(container.arrivals) + old(pendingItems)
      ensures !container.isLoaded ==>
        && container.pendingItems == old(container.pendingItems) + old(pendingItems)
        && container.Layout() == old(container.Layout())
      ensures container.isLoaded ==>
        && container.pendingItems == old(container.pendingItems)
        && container.Layout() == PlaceAll(old(container.Layout()), old(pendingItems))
      ensures forall e: StatusBarEntry :: e in old(pendingItems) ==>
        e.disposedHandlers == old(e.disposedHandlers)
          + (if container.isLoaded then Repeat(container, Occurrences(old(pendingItems), e, |old(pendingItems)|)) else [])
    {
      ghost var queued, n := pendingItems, 0;
      ghost var subscribers := map e | e in queued :: e.disposedHandlers;
      ghost var delivered0, arrivals0, waiting0, layout0 :=
        delivered, container.arrivals, container.pendingItems, container.Layout();
      var c := container;
      while pendingItems != []
        invariant container == c && c.isLoaded == old(c.isLoaded) && c.Valid()
        invariant n <= |queued| && pendingItems == queued[n..]
        invariant delivered == delivered0 + queued[..n]
        invariant c.arrivals == arrivals0 + queued[..n]
        invariant !c.isLoaded ==> c.pendingItems == waiting0 + queued[..n] && c.Layout() == layout0
        invariant c.isLoaded ==>
          c.pendingItems == waiting0 && PlaceAll(layout0, queued) == PlaceAll(c.Layout(), pendingItems)
        invariant forall e: StatusBarEntry :: e in queued ==>
          e in subscribers && e.disposedHandlers == subscribers[e] + (if c.isLoaded then Repeat(c, Occurrences(queued, e, n)) else [])
        decreases |pendingItems|
      {
        assert queued[..n + 1] == queued[..n] + [queued[n]];
        Associative(delivered0, queued[..n], [queued[n]]);
        Associative(arrivals0, queued[..n], [queued[n]]);
        Associative(waiting0, queued[..n], [queued[n]]);
        FlushStep(queued, n, subscribers);
        n := n + 1;
      }
      assert queued[..n] == queued;
    }

    /** One turn of the drain loop: dequeue the head and hand it over. */
    method FlushStep(ghost queued: seq<StatusBarEntry>, ghost n: nat,
                     ghost subscribers: map<StatusBarEntry, seq<StatusBarContainer>>)
      requires container != null && container.Valid()
      requires n < |queued| && pendingItems == queued[n..]
      requires forall e: StatusBarEntry :: e in queued ==>
        e in subscribers && e.disposedHandlers == subscribers[e]
          + (if container.isLoaded then Repeat(container, Occurrences(queued, e, n)) else [])
      modifies this`pendingItems, this`delivered, container`left, container`center, container`right, container`pendingItems, container`arrivals
      modifies {queued[n]}`disposedHandlers
      ensures pendingItems == queued[n + 1..] && delivered == old(delivered) + [queued[n]]
      ensures container.Valid() && container.isLoaded == old(container.isLoaded)
      ensures container.arrivals == old(container.arrivals) + [queued[n]]
      ensures !container.isLoaded ==>
        && container.pendingItems == old(container.pendingItems) + [queued[n]]
        && container.Layout() == old(container.Layout())
      ensures container.isLoaded ==>
        && container.pendingItems == old(container.pendingItems)
        && PlaceAll(old(container.Layout()), old(pendingItems)) == PlaceAll(container.Layout(), pendingItems)
      ensures forall e: StatusBarEntry :: e in queued ==>
        e in subscribers && e.disposedHandlers == subscribers[e]
          + (if container.isLoaded then Repeat(container, Occurrences(queued, e, n + 1)) else [])
    {
      var item := pendingItems[0];
      pendingItems := pendingItems[1..];
      delivered := delivered + [item];
      var _ := container.AddStatusBarItemView(item);
      forall e: StatusBarEntry | e in queued
        ensures e.disposedHandlers == subscribers[e]
          + (if container.isLoaded then Repeat(container, Occurrences(queued, e, n + 1)) else [])
      {
        var k := Occurrences(queued, e, n);
        if e == item {
          assert Occurrences(queued, e, n + 1) == k + 1;
          if container.isLoaded {
            SubscribedOnceMore(subscribers[e], old(e.disposedHandlers), e.disposedHandlers, container, k);
          }
        } else {
          assert Occurrences(queued, e, n + 1) == k;
          assert e.disposedHandlers == old(e.disposedHandlers);
        }
      }
    }

    /** BindContainer: only once; binding hands over everything queued so far. */
    method BindContainer(statusBarContainer: StatusBarContainer) returns (r: Outcome<Exception>)
      requires Valid() && statusBarContainer.Valid()
      modifies this`container, this`pendingItems, this`delivered
      modifies statusBarContainer`left, statusBarContainer`center, statusBarContainer`right
      modifies statusBarContainer`pendingItems, statusBarContainer`arrivals, pendingItems`disposedHandlers
      ensures Valid() && created == old(created)
      ensures old(container) != null ==>
        && r == Fail(InvalidOperationException) && container == old(container)
        && pendingItems == old(pendingItems) && delivered == old(delivered)
        && unchanged(statusBarContainer)
      ensures old(container) == null ==>
        && r == Pass && container == statusBarContainer
        && delivered == old(created)
        && statusBarContainer.arrivals == old(statusBarContainer.arrivals) + old(pendingItems)
      ensures old(container) == null && !statusBarContainer.isLoaded ==>
        && statusBarContainer.pendingItems == old(statusBarContainer.pendingItems) + old(pendingItems)
        && statusBarContainer.Layout() == old(statusBarContainer.Layout())
      ensures old(container) == null && statusBarContainer.isLoaded ==>
        && statusBarContainer.pendingItems == old(statusBarContainer.pendingItems)
        && statusBarContainer.Layout() == PlaceAll(old(statusBarContainer.Layout()), old(pendingItems))
      ensures old(container) == null ==> forall e: StatusBarEntry :: e in old(pendingItems) ==>
        e.disposedHandlers == old(e.disposedHandlers)
          + (if container.isLoaded then Repeat(container, Occurrences(old(pendingItems), e, |old(pendingItems)|)) else [])
    {
      if container != null {
        return Fail(InvalidOperationException);
      }
      container := statusBarContainer;
      Flush();
      return Pass;
    }

    /** AddStatusBarEntry: queue while unbound; once bound, flush what is
        queued and hand over the new entry. */
    method AddStatusBarEntry(entry: StatusBarEntry)
      requires Valid()
      modifies this`pendingItems, this`delivered, this`created,
        {container}`left, {container}`center, {container}`right,
        {container}`pendingItems, {container}`arrivals
      modifies entry`disposedHandlers
      ensures Valid() && created == old(created) + [entry] && container == old(container)
      ensures old(container) == null ==> pendingItems == old(pendingItems) + [entry]
      ensures old(container) == null ==> entry.disposedHandlers == old(entry.disposedHandlers)
      ensures old(container) != null ==>
        && delivered == created
        && container.arrivals == old(container.arrivals) + [entry]
      ensures old(container) != null && !container.isLoaded ==>
        && container.pendingItems == old(container.pendingItems) + [entry]
        && container.Layout() == old(container.Layout())
        && entry.disposedHandlers == old(entry.disposedHandlers)
      ensures old(container) != null && container.isLoaded ==>
        && container.pendingItems == old(container.pendingItems)
        && container.Layout() == PlaceInto(old(container.Layout()), entry)
        && entry.disposedHandlers == old(entry.disposedHandlers) + [container]
    {
      created := created + [entry];
      if container == null {
        pendingItems := pendingItems + [entry];
        return;
      }
      Flush();
      var _ := container.AddStatusBarItemView(entry);
      delivered := delivered + [entry];
    }

    /** CreateStatusBarItem: a new hidden, permanent entry with the given id,
        alignment and priority, added to the bar, and a handle over it. */
    method CreateStatusBarItem(id: string, alignment: StatusBarAlignment := Left, priority: int := 0)
      returns (item: StatusBarItem)
      requires Valid()
      modifies this`pendingItems, this`delivered, this`created,
        {container}`left, {container}`center, {container}`right,
        {container}`pendingItems, {container}`arrivals
      ensures Valid() && container == old(container)
      ensures fresh(item) && item.entry != null && fresh(item.entry) && created == old(created) + [item.entry]
      ensures item.id == id && item.alignment == alignment && item.priority == priority && !item.isDisposed
      ensures item.entry.id == id && item.entry.alignment == alignment && item.entry.priority == priority
      ensures !item.entry.isTemporary && !item.entry.isShow && item.entry.text == ""
      ensures item.entry.toolTip == "" && item.entry.click == None && item.entry.color == None
        && item.entry.backgroundColor == None && item.entry.fontWeight == NormalFontWeight
        && item.entry.content == None && !item.entry.hasRichText && item.entry.inlines == []
      ensures item.text == None && item.toolTip == None && item.click == None
        && item.color == None && item.backgroundColor == None && item.fontWeight == UnsetFontWeight
      ensures old(container) != null && container.isLoaded ==> item.entry.disposedHandlers == [container]
      ensures old(container) == null || !container.isLoaded ==> item.entry.disposedHandlers == []
      ensures old(container) == null ==> pendingItems == old(pendingItems) + [item.entry]
      ensures old(container) != null ==> container.arrivals == old(container.arrivals) + [item.entry]
      ensures old(container) != null && !container.isLoaded ==>
        && container.pendingItems == old(container.pendingItems) + [item.entry]
        && container.Layout() == old(container.Layout())
      ensures old(container) != null && container.isLoaded ==>
        && container.pendingItems == old(container.pendingItems)
        && container.Layout() == PlaceInto(old(container.Layout()), item.entry)
    {
      var entry := new StatusBarEntry(id, alignment, priority, false, "", false);
      AddStatusBarEntry(entry);
      item := new StatusBarItem(entry);
    }

    /** SetStatusBarMessage: a new shown, temporary entry carrying `text`,
        left-aligned with priority 0, under the fresh id `newId`; the result
        disposes it. */
    method SetStatusBarMessage(text: string, newId: string) returns (d: DisposableAction)
      requires Valid()
      modifies this`pendingItems, this`delivered, this`created,
        {container}`left, {container}`center, {container}`right,
        {container}`pendingItems, {container}`arrivals
      ensures Valid() && container == old(container)
      ensures fresh(d) && fresh(d.entry) && created == old(created) + [d.entry]
      ensures d.entry.id == newId && d.entry.isTemporary && d.entry.isShow && d.entry.text == text
      ensures d.entry.alignment == Left && d.entry.priority == 0
      ensures d.entry.toolTip == "" && d.entry.click == None && d.entry.color == None
        && d.entry.backgroundColor == None && d.entry.fontWeight == NormalFontWeight
        && d.entry.content == None && !d.entry.hasRichText && d.entry.inlines == []
      ensures old(container) != null && container.isLoaded ==> d.entry.disposedHandlers == [container]
      ensures old(container) == null || !container.isLoaded ==> d.entry.disposedHandlers == []
      ensures old(container) == null ==> pendingItems == old(pendingItems) + [d.entry]
      ensures old(container) != null ==> container.arrivals == old(container.arrivals) + [d.entry]
      ensures old(container) != null && !container.isLoaded ==>
        && container.pendingItems == old(container.pendingItems) + [d.entry]
        && container.Layout() == old(container.Layout())
      ensures old(container) != null && container.isLoaded ==>
        && container.pendingItems == old(container.pendingItems)
        && container.Layout() == PlaceInto(old(container.Layout()), d.entry)
    {
      var entry := new StatusBarEntry(newId, Left, 0, true, text, true);
      AddStatusBarEntry(entry);
      d := new DisposableAction(entry);
    }
  }
}

=== FILE: types.dfy ===
/** Value types shared by the status-bar library. */
module StatusBarTypes {

  /** Which region of the status bar an entry belongs to. */
  datatype StatusBarAlignment = Left | Center | Right

  /** The exceptions the library throws at its call sites. */
  datatype Exception =
    | ArgumentNullException
    | ObjectDisposedException
    | InvalidOperationException

  /** Opaque stand-ins for framework objects the library only stores and compares. */
  type Brush = nat          // an IBrush instance
  type ClickAction = nat    // an Action delegate
  type ContentObject = nat  // an arbitrary content object
  type FontWeight = nat     // a FontWeight value, e.g. 400 for Normal

  const NormalFontWeight: FontWeight := 400
  /** `default(FontWeight)`: a property never assigned holds zero, which names no weight. */
  const UnsetFontWeight: FontWeight := 0
}

=== FILE: wrappers.dfy ===
/** Failure-compatible wrappers shared by the status-bar model. */
module Wrappers {

  /** A value that may be absent; stands for a C# nullable reference. */
  datatype Option<+T> = None | Some(value: T)

  /** The outcome of an operation that either completes or throws `error`. */
  datatype Outcome<+E> = Pass | Fail(error: E)
}
